=== FILE: README.md ===
# Story digest and illustration pipeline — a Dafny model

This project models the deterministic core of a Flask application. The
application turns a Turkish story into a three-part digest: introduction
("Giriş"), development ("Gelişme") and conclusion ("Sonuç"). It then
translates each part to English and draws one picture per part. It stores
the digest as a database row and exports it as a text file.

Four companion scripts are modelled alongside the web app:
- a batch script reads an exported digest back, translates it and draws it;
- a script builds extractive reference summaries by sentence similarity;
- a script scores generated summaries against the reference summaries;
- a loader reads the `key=value` configuration file.

External models are parameters of the model, never code:
- the summarizer and `clean_text`;
- the MarianMT translator;
- the CLIP tokenizer (`tokenize` and `convert_tokens_to_string`);
- the diffusion pipeline;
- difflib's similarity ratio;
- the ROUGE and BERTScore scorers.

Each of them is a function, wrapped in `Option` where the source can find
it missing or see it raise. The three clocks the web app reads are separate
`DateTime` inputs:
- the request clock for typed text;
- the clock read inside each `generate_image` call;
- the database default that stamps the row.

A request is modelled as its response (refused, server error, or created row)
together with the ordered list of durable effects it leaves:
- image files written;
- the row committed;
- the text export written.

Modules, one per source file, plus small libraries:

| module | models |
|---|---|
| `Wrappers` | `Option` and `Result` |
| `PyStr` | the `str` methods used: `strip`, `find`, `rfind`, `split(c, 1)`, `replace`, ASCII `lower`, `join` |
| `PyPath` | POSIX `os.path.join`, `basename`, `splitext` |
| `Timestamp` | `strftime("%Y%m%d%H%M%S")` and reading such a stamp back |
| `TokenBudget` | the 77-token CLIP prompt budget shared by both image steps |
| `Naming` | `{base}_{sanitised model}_{stamp}{ext}` artifact names |
| `Digest` | the three sections and their headings |
| `ImageGenerator` | `image_generator.py`: `translate_text`, `generate_image` |
| `App` | `app.py`: validation, the pipeline of both routes, the row, the export |
| `VisionModelTest` | `vision_model_test.py`: `process_file`, `generate_image_with_prompt`, the main loop |
| `DigestRoundTrip` | the exported file read back by `process_file` |
| `Performance` | `performance.py`: `find_closest_match`, `process_files`, `calculate_bertscore` |
| `CosineSimilarity` | `cosine_similarity.py`: top-sixth sentence selection and the output name |
| `ConfigLoader` | `config_loader.py`: `load_keys_from_file` |

Two behaviours of the code that are easy to misread:

- **Budget below zero.** The caption is cut with `tokens[:budget]`. With a
  negative budget, Python keeps all but the last `-budget` tokens, so the
  prompt then exceeds 77 tokens. `TokenBudget.SliceTo` models Python's
  slice, and `TokenBudget.NegativeBudgetOverflows` shows the overflow. With
  the fixed preamble the budget is positive for any real CLIP tokenizer.
- **Ties in the match.** `difflib.get_close_matches` keeps the largest
  `(score, name)` pair, so among equal ratios the greatest name wins.
  `Performance.FindClosestMatch` computes that order. Its contract states
  only the ratio properties (see Left out).

## Model

| member | source | states |
|---|---|---|
| Timestamp.ParseFormat | app.py:95 | the fixed-width 14-digit stamp of a valid time reads back as that same time |
| Timestamp.FormatInjective | image_generator.py:120 | two valid times with the same stamp are equal, to the second |
| TokenBudget.SliceTo | image_generator.py:104 | Python's `tokens[:k]` is a prefix; its length is `min(k, len)` for k ≥ 0 and `max(len + k, 0)` for negative k |
| TokenBudget.KeptTokens | image_generator.py:96-105 | the kept tokens are a prefix of the caption's tokens; all of them when they fit, exactly `budget` when cut; preamble + kept + 2 ≤ 77 whenever the budget is not negative |
| TokenBudget.NegativeBudgetOverflows | image_generator.py:100-104 | with a negative budget the cut keeps tokens, and the prompt's token count exceeds 77 |
| TokenBudget.FitCaption | image_generator.py:102-105 | the caption is used unchanged when its tokens fit, otherwise it is the detokenized first `budget` tokens |
| Naming.SanitizeModelName | image_generator.py:123 | same length; `/` and `-` become `_` position by position, every other character is kept; the result holds no `/` or `-` |
| Naming.SanitizeIdempotent | app.py:96 | sanitising a sanitised name changes nothing |
| Naming.ArtifactName | image_generator.py:125 | the name is `base`, `_`, the sanitised model name, `_`, then 14 characters that read back as the time, then the extension |
| Naming.ArtifactNameInjective | app.py:99 | two names for the same base, model and extension are equal only if the times are equal to the second |
| ImageGenerator.TranslateText | image_generator.py:47-84 | the translation when the model is loaded and succeeds; the input itself when the model is missing or the call raises |
| ImageGenerator.ImagePrompt | image_generator.py:96-107 | the prompt is the preamble with no separator, followed by the caption when it fits or by the detokenized first `budget` tokens |
| ImageGenerator.ImageFilename | image_generator.py:119-125 | `{title}_{safe}_{stamp}.png`: its length, the title and `_`, the sanitised model name and `_`, a stamp that reads back as the clock, and `.png` |
| ImageGenerator.ImageUrl | image_generator.py:130 | `images/` joined with the file name, with no backslash left |
| ImageGenerator.GenerateImage | image_generator.py:86-134 | an image is saved iff the caption is non-empty, the tokenizer and pipeline are loaded and the pipeline succeeds on the budgeted prompt; a saved image has the named path and URL, and only `None` gives the empty field |
| App.AllowedFile | app.py:53-54 | true iff the name has a `.` and the lower-cased text after the last `.` is `txt` or `pdf` |
| App.ValidateTypedText | app.py:155-162 | the text is stripped first; refused as empty iff it is all whitespace; refused as too long iff the stripped text exceeds 10000 characters; accepted text has length 1 to 10000 |
| App.ValidateUploadText | app.py:224-226 | uploaded text is refused iff it is all whitespace; accepted text is passed on unchanged, with no length cap |
| App.SummaryFilename | app.py:93-99 | the export name is the upload's name without its extension, `_`, the sanitised model, `_`, the row's stamp and `.txt` |
| App.SaveSummaryToFile | app.py:102-110 | nothing raises to the caller; a file exists at the export path unless `open` itself raised; it holds a prefix of the three labelled sections, all of them when every write went through and exactly the characters that reached it when a write raised part way |
| App.Captions | app.py:167-169 | each section's caption is `translate_text` of that section alone, so a failed translation falls back to that section's own text |
| App.ImageResults | app.py:173-175 | one `generate_image` per section, titled `{base}_intro`, `{base}_development`, `{base}_conclusion`, each on its own clock |
| App.ImageFields | app.py:173-186 | an image field is `""` iff that image was not made; one file was written per non-empty field |
| App.Pipeline | app.py:164-190 | a server error iff summarizing raised, with nothing written; otherwise the row holds the summary's sections unchanged, the title, the row clock and the model, then exactly the image files `ImageEffects` lists for the saved pictures, then the row, then whatever the export left (nothing only when `open` raised) |
| App.TypedBaseShape | app.py:171 | the typed-text prefix `user_text_{stamp}` holds no `/` and does not start with a dot |
| App.RunTyped | app.py:154-192 | refused iff validation fails, with nothing written; otherwise titled "Kullanıcı Metni" and holding the digest of the stripped text |
| App.ReadUpload | app.py:209-226 | never raises once the extension is known; the file passes iff it is `txt` and reads as non-blank text or `pdf` with non-blank extracted text; the read error iff a `txt` read fails; the unsupported-type error iff the extension is neither `txt` nor `pdf`; refused as empty iff the text read is all whitespace; passed text is exactly the text read for that extension |
| App.UploadGateAsWrittenCrashes | app.py:202-209 | the browser name `.txt` passes `allowed_file`, yet the secured name `txt` makes the extension lookup raise |
| App.UploadGate | app.py:202-226 | the corrected checks never raise; a name `allowed_file` rejects is refused as such and only such names are; an allowed name passes iff its secured name has a `.` and the file of that extension reads as non-blank text, which is then the text passed on; it is an unsupported type iff the secured name has no `.` or its extension is neither `txt` nor `pdf` |
| App.UploadGateAgrees | app.py:202-222 | the checks as written raise exactly when the name passed `allowed_file` and the secured name has no `.`; otherwise they agree with the corrected checks |
| App.RunUpload | app.py:199-256 | the route as written: refused iff the checks refuse, with their reason and nothing written; a name `allowed_file` accepts whose secured form has no `.` gives HTTP 500 with nothing written; a server error iff the checks raise or they accept and summarizing raises; a created row comes from accepted checks, holds the summary of the accepted text and is titled with the secured name without its extension |
| App.RunUploadCorrected | app.py:199-256 | with the corrected checks, that name is refused as an unsupported type with nothing written; every other request behaves exactly as the route as written |
| App.SummariesJoin | app.py:100 | the export lands directly in `summaries/` |
| App.ExportPathOfStem | app.py:93-100 | exporting `base.txt` writes `summaries/{base}_{safe}_{stamp}.txt` |
| App.TypedExportPath | app.py:171-190 | when a typed-text request is created, its export is named from the request clock (`user_text_{stamp}`) and stamped with the row's separate clock |
| App.ExportFailureKeepsRow | app.py:187-190 | an export whose `open` raised changes neither the response nor the earlier effects, and adds no file; the committed row remains |
| App.ExportOnlyLast | app.py:187-190 | the export comes after the commit, so its outcome decides only the effects after the committed row: the response and every earlier effect are those of a completed export |
| App.CutExportKeepsRow | app.py:102-110 | an export cut short by a raising write changes neither the response nor the earlier effects; it leaves a file at the same path holding the start of the full digest |
| VisionModelTest.UpToBlankLine | vision_model_test.py:34-36 | the section closes at the first blank line at or after the marker, or at the end when none follows; the result is the content from `from` to that point, empty when that point comes first, and so never holds a blank line |
| VisionModelTest.ExtractSection | vision_model_test.py:32-36 | `None` iff the `Header:` marker is absent; a found section is the text from just after the marker's first occurrence up to the blank line that closes it, stripped, so it is stripped and holds no blank line |
| VisionModelTest.ProcessFile | vision_model_test.py:26-38 | always the three sections, each extracted by its own marker as above; each is `None` iff its marker is absent |
| VisionModelTest.ClosesAtUnique | vision_model_test.py:34-35 | a section closes at one point only, so the slice `UpToBlankLine` returns is determined by the content |
| VisionModelTest.SectionTextUnique | vision_model_test.py:32-36 | the first marker occurrence is unique, so the section text a marker opens is determined by the content |
| VisionModelTest.VisionPrompt | vision_model_test.py:44-53 | the same budget rule, with a single space between preamble and caption |
| VisionModelTest.GenerateImageWithPrompt | vision_model_test.py:41-64 | the failure text "Görsel oluşturulamadı." iff the pipeline is missing or fails; otherwise `{folder}/{title}.png` |
| VisionModelTest.RunSectionsHandles | vision_model_test.py:92-101 | every record belongs to a present section and holds its translation and picture |
| VisionModelTest.RunSectionsMembers | vision_model_test.py:92-101 | a section gets a record iff it was found and is not empty |
| VisionModelTest.RunSectionsOrdered | vision_model_test.py:92-101 | records come in the fixed order Giriş, Gelişme, Sonuç, whatever their order in the file, so no section is handled twice |
| VisionModelTest.ScriptParts | vision_model_test.py:92-101 | looping over the three sections yields at most three records, in the fixed order Giriş, Gelişme, Sonuç whatever their order in the file, exactly for the sections found and not empty |
| VisionModelTest.ScriptRecords | vision_model_test.py:92-101 | each record of that loop is for a non-empty section and holds that section's translation |
| VisionModelTest.RunScriptSpec | vision_model_test.py:85-101 | on a file's content: at most three records, in the fixed order Giriş, Gelişme, Sonuç whatever their order in the file, each for a section whose `Header:` marker is in the file |
| DigestRoundTrip.ExtractBlock | vision_model_test.py:32-36 | a block `Header:\n{x}\n\n` preceded only by text without its marker is read back as `x` |
| DigestRoundTrip.DigestRoundTrip | app.py:104-106 | `process_file` on the exported body gives back all three sections, when each is stripped, holds no blank line and no earlier section holds a later heading |
| Performance.BertScore | performance.py:17-31 | the scorer's triple, or all zeros when it raised |
| Performance.FindClosestMatch | performance.py:33-36 | `None` iff every candidate's ratio is below 0.4; a match is listed, reaches 0.4, and no candidate has a higher ratio |
| Performance.TextFiles | performance.py:43 | a listed name is processed iff it ends in `.txt` |
| Performance.Keep | performance.py:45-54 | a file is kept iff it is in the list and accepted |
| Performance.FileRecords | performance.py:48-93 | no records iff either reference has no usable match; `None` (the run stops) iff a matched file's three reads or its two ROUGE scorings raise; otherwise two, GPT then Cosine, both carrying the generated file's name, each holding the ROUGE and BERTScore of the generated text against that reference's text |
| Performance.FlattenPairs | performance.py:45-93 | with two records per kept file and none otherwise, record 2k and 2k+1 are the pair of the k-th kept file |
| Performance.ScoreFiles | performance.py:45-96 | `None` iff some file of the list stops the run; otherwise every file's records, one file after the other |
| Performance.MatchedRecords | performance.py:45-96 | when no file stops the run, records 2k and 2k+1 are the GPT and Cosine records of the k-th fully matched file |
| Performance.ProcessFiles | performance.py:38-96 | `None` iff some fully matched `.txt` file of the listing has a read or a ROUGE scoring that raises; otherwise the records are twice the number of fully matched `.txt` files, in listing order, each pair GPT then Cosine for that file, as `FileRecords` scores them |
| CosineSimilarity.Sort | cosine_similarity.py:45 | the sorted list is a permutation of its input and sorted in the requested order |
| CosineSimilarity.TopBeatsRest | cosine_similarity.py:45-50 | every pair kept from the head of the ranking outranks every pair left out |
| CosineSimilarity.SelectedIndices | cosine_similarity.py:44-50 | exactly `total // 6` distinct indices, in increasing order; each selected sentence beats each unselected one by score, ties going to the higher index |
| CosineSimilarity.SummarySentences | cosine_similarity.py:53 | the selected sentences in text order |
| CosineSimilarity.ReferenceSummary | cosine_similarity.py:48-54 | fewer than six sentences select none and give `""`; otherwise the selection joined by single spaces |
| CosineSimilarity.SummaryPath | cosine_similarity.py:66-67 | the output is the input's base name without its extension, plus `.txt`, in `cos_sim_summaries` |
| CosineSimilarity.SummaryPathOf | cosine_similarity.py:66-67 | a path `dir/b.e` is summarised to `cos_sim_summaries/b.txt` |
| ConfigLoader.Entry | config_loader.py:15-16 | the key holds no `=`, and key and value are both stripped |
| ConfigLoader.EntryAt | config_loader.py:12-16 | for any line as read (its line break included) whose first `=` is at `i` and which is no comment, the key is the stripped text before `i` and the value the stripped text after it: only the first `=` splits, so the value may contain more, and no inline comment is removed |
| ConfigLoader.EqualsSurvivesStrip | config_loader.py:14-15 | a line has a `=` iff its stripped form does, so the split always finds two parts |
| ConfigLoader.ApplyAgrees | config_loader.py:13-16 | each line read keeps the map equal to the last setting line of every key so far |
| ConfigLoader.LoadKeysFromFile | config_loader.py:8-20 | an unreadable file gives the empty map; otherwise a key is present iff some setting line sets it, with the last such line's value; lines without `=` and comment lines are ignored |

## Left out

- Flask routing, templates, `flash`, redirects, the session, the `summary` and `search` views and the 413 handler: framework plumbing with no logic of its own.
- SQLAlchemy: the row is a value, its database id is not modelled, and committing is an effect in the run's effect list.
- `secure_filename`, saving the upload and PyPDF2 extraction: library code. The secured name and the extracted PDF text are inputs.
- `os.makedirs`: the folder creation is assumed to succeed. In `save_summary_to_file` it sits outside the `try`, so a failure there would escape.
- `summarizer.py` is not part of this model: `clean_text` and `summarize_text` are parameters, and a summarizer exception is the server-error response.
- Model internals (MarianMT, Stable Diffusion, CLIP tokenization, SentenceTransformer, BERTScore, `rouge`): each is an abstract function. A tokenizer exception in `generate_image` is not modelled.
- ImageGenerator.GenerateImage: one pipeline outcome stands for three steps: running the pipeline, saving the image, and the `try` around them.
- App.SaveSummaryToFile: the text left by a write that raised is a prefix counted in characters; a cut inside the UTF-8 bytes of one character, and which prefix Python's buffering lets through, are not modelled (the prefix length is an input).
- Floating point: ratios are `real`, ROUGE and BERTScore values are abstract `real` triples, and the rounding to four places is not modelled. Cosine similarity scores are `int`, which keeps only their order.
- Performance.FindClosestMatch: does not state difflib's tie-break. The code ranks by `(score, name)` and the body follows that order, but no contract fixes which of two equally scored names is returned. difflib's ratio and its quick pre-filters are the `ratio` parameter.
- `calculate_rouge_scores` and the Excel report in `process_files`: the scorer is a parameter (`None` where the library raises, which stops the whole run as in the source), and the spreadsheet is output I/O.
- `save_results` in the batch script, the file dialogs and all `print`/logging calls: I/O.
- `create_app`'s checks for missing configuration keys and model loading: start-up code. The loaded services are parameters.
- `gpt_summarizer.py` and `performance_comparison.py`: API calls and plotting, outside this model.
- The torch device selection in `config_loader.py`: hardware probing.
- `nltk` sentence splitting and the embeddings in `cosine_similarity.py`: the sentences and their scores are inputs.
- PyStr.Lower: folds ASCII letters only; Python's full Unicode case mapping is not modelled.
- PyPath: POSIX paths only; the Windows `ntpath` rules are not modelled.
- Timestamp: `Format14` zero-pads every year to four digits, while glibc's `%Y` does not pad years below 1000; stamps for years 1 to 999 are therefore not what `strftime` produces.
- Re-tokenizing the final prompt string: the code bounds only the token list, and so does the model.

## Findings

| source | as written | input that shows it | evidently intended | confidence | as-written member | corrected member |
|---|---|---|---|---|---|---|
| app.py:202-209 | `allowed_file` checks the browser's name, but the extension is then read from `secure_filename`'s result with `rsplit('.', 1)[1]` | a file named `.txt`: `allowed_file(".txt")` holds, `secure_filename(".txt") == "txt"` has no `.`, and the lookup raises `IndexError` (HTTP 500) | a secured name without an extension is refused like any unsupported file type | not executed | App.UploadGateAsWrittenCrashes | App.RunUploadCorrected |

=== FILE: app.dfy ===
/** `app.py`: request validation, the digest pipeline behind the two
    routes, the stored row and the exported text file. The Flask request
    and response machinery is reduced to a `Run`: the response the route
    produces and the durable effects it leaves behind, in order. */
module App {
  import opened Wrappers
  import opened PyStr
  import opened PyPath
  import opened Timestamp
  import opened TokenBudget
  import opened Naming
  import opened Digest
  import opened ImageGenerator

  /** The longest typed text the form accepts, in characters. */
  const MaxTextLength := 10000

  /** The title stored for text typed into the form. */
  const UserTextTitle := "Kullanıcı Metni"

  const AllowedExtensions: set<string> := {"txt", "pdf"}

  /** Why a request is turned away with a flashed message. */
  datatype Rejection =
    | EmptyText        // "Lütfen bir metin giriniz."
    | TextTooLong      // "Metin çok uzun! ..."
    | NotAllowedFile   // "Lütfen geçerli bir TXT veya PDF dosyası yükleyin."
    | ReadFailed       // "TXT dosyasından metin okunurken hata oluştu: ..."
    | UnsupportedType  // "Desteklenmeyen dosya türü."
    | NoTextInFile     // "Dosyada metin bulunamadı."

  /** `allowed_file`: the name has a `.` and the text after the last one,
      lower-cased, is `txt` or `pdf`. */
  function AllowedFile(filename: string): (r: bool)
    ensures r <==> exists i :: 0 <= i < |filename| && filename[i] == '.' && '.' !in filename[i + 1..]
                            && Lower(filename[i + 1..]) in AllowedExtensions
  {
    LastIsRFind(filename, '.');
    match RFind(filename, '.')
    case None => false
    case Some(i) => Lower(filename[i + 1..]) in AllowedExtensions
  }

  /** The checks on typed text: it is stripped first, then refused when
      empty or longer than 10000 characters. */
  function ValidateTypedText(raw: string): (r: Result<string, Rejection>)
    ensures r.Ok? ==> r.value == Strip(raw) && 0 < |r.value| <= MaxTextLength
    ensures r == Err(EmptyText) <==> AllSpace(raw)
    ensures r == Err(TextTooLong) <==> |Strip(raw)| > MaxTextLength
    ensures r.Err? ==> r.error == EmptyText || r.error == TextTooLong
  {
    StripEmptyIffAllSpace(raw);
    var text := Strip(raw);
    if text == "" then Err(EmptyText)
    else if |text| > MaxTextLength then Err(TextTooLong)
    else Ok(text)
  }

  /** The only check on text read from an upload: it must not be blank.
      The text is passed on as read, unstripped and with no length cap. */
  function ValidateUploadText(text: string): (r: Result<string, Rejection>)
    ensures r.Ok? <==> !AllSpace(text)
    ensures r.Ok? ==> r.value == text
    ensures r.Err? ==> r.error == NoTextInFile
  {
    StripEmptyIffAllSpace(text);
    if Strip(text) == "" then Err(NoTextInFile) else Ok(text)
  }

  /** A row of the `Summary` table. The database id is left out. */
  datatype Summary = Summary(title: string, sections: Sections<string>, timestamp: DateTime,
                             modelName: string, images: Sections<string>)

  /** One labelled section of the exported text file: the heading, a colon
      and a line break, the section, then a blank line. */
  function SectionBlock(p: Part, text: string): string {
    Header(p) + ":\n" + text + "\n\n"
  }

  /** The body of the exported text file: the three blocks in order. */
  function DigestBody(d: Sections<string>): string {
    SectionBlock(Intro, d.intro) + SectionBlock(Development, d.development) + SectionBlock(Conclusion, d.conclusion)
  }

  /** The exported file's name: the upload's name without its extension,
      the sanitised summary model name and the row's timestamp. */
  function SummaryFilename(filename: string, modelName: string, t: DateTime): (r: string)
    requires Valid(t)
    ensures |r| == |SplitExt(filename).0| + |modelName| + 20
    ensures StartsWith(r, SplitExt(filename).0 + "_") && EndsWith(r, ".txt")
    ensures var b := SplitExt(filename).0;
      r[|b| + 1..|b| + 1 + |modelName|] == SanitizeModelName(modelName) && r[|b| + 1 + |modelName|] == '_'
    ensures Parse14(r[|r| - 18..|r| - 4]) == Some(t)
  {
    ArtifactName(SplitExt(filename).0, modelName, t, ".txt")
  }

  /** Where the exported file is written. */
  function ExportPath(filename: string, row: Summary): string
    requires Valid(row.timestamp)
  {
    PathJoin("summaries", SummaryFilename(filename, row.modelName, row.timestamp))
  }

  /** A durable change a request leaves behind. */
  datatype Effect =
    | ImageWritten(path: string)
    | RowCommitted(row: Summary)
    | ExportWritten(path: string, body: string)

  /** The response: a flashed refusal, an uncaught exception (HTTP 500), or
      a redirect to the new summary's page. */
  datatype Response = Rejected(reason: Rejection) | ServerError | Created(row: Summary)

  datatype Run = Run(response: Response, effects: seq<Effect>)

  /** How the `with open(...)` block of `save_summary_to_file` ends:
      `open` raised and no file was made; a `write` (or the closing flush)
      raised after the first `kept` characters of the body reached the
      file that `open` had already created or truncated; or all three
      writes went through. */
  datatype ExportOutcome = NotOpened | Cut(kept: nat) | Completed

  /** `save_summary_to_file`: the file at the export path holds the
      labelled sections, or, when a write raised, what reached it before;
      the exception is logged and the caller goes on. */
  function SaveSummaryToFile(row: Summary, filename: string, outcome: ExportOutcome): (r: seq<Effect>)
    requires Valid(row.timestamp)
    ensures |r| <= 1
    ensures r == [] <==> outcome.NotOpened?
    ensures r != [] ==>
      && r[0].ExportWritten?
      && r[0].path == ExportPath(filename, row)
      && r[0].body <= DigestBody(row.sections)
    ensures outcome.Completed? ==> r == [ExportWritten(ExportPath(filename, row), DigestBody(row.sections))]
    ensures outcome.Cut? && outcome.kept < |DigestBody(row.sections)| ==>
      |r[0].body| == outcome.kept && r[0].body != DigestBody(row.sections)
  {
    var body := DigestBody(row.sections);
    match outcome
    case NotOpened => []
    case Cut(kept) => [ExportWritten(ExportPath(filename, row), body[..if kept < |body| then kept else |body|])]
    case Completed => [ExportWritten(ExportPath(filename, row), body)]
  }

  /** The models and helpers the routes call: `clean_text`, `summarize_text`
      (`None` when it raised), the translator, the CLIP tokenizer and the
      image pipeline, and the configured model names. */
  datatype Services<!Tok> = Services(
    summaryModelName: string,
    imageModelId: string,
    clean: string -> string,
    summarize: string -> Option<Sections<string>>,
    translator: Option<Translator>,
    clip: Option<Tokenizer<Tok>>,
    pipe: Option<Pipe>)

  /** The separately read clocks: the request's own `utcnow()` (typed text
      only), the one `generate_image` reads for each section, and the
      database default that stamps the row. */
  datatype Clocks = Clocks(request: DateTime, images: Sections<DateTime>, row: DateTime)

  predicate ValidClocks(c: Clocks) {
    Valid(c.request) && Valid(c.images.intro) && Valid(c.images.development)
    && Valid(c.images.conclusion) && Valid(c.row)
  }

  /** Each section translated independently, falling back to its own text. */
  function Captions(d: Sections<string>, translator: Option<Translator>): (r: Sections<string>)
    ensures forall p :: r.Get(p) == d.Get(p) || (translator.Some? && translator.value(d.Get(p)) == Some(r.Get(p)))
    ensures forall p :: translator.Some? && translator.value(d.Get(p)).None? ==> r.Get(p) == d.Get(p)
    ensures forall p :: r.Get(p) == TranslateText(d.Get(p), translator)
  {
    Sections(TranslateText(d.intro, translator), TranslateText(d.development, translator),
             TranslateText(d.conclusion, translator))
  }

  /** The image suffix of each section's title. */
  function ImageSuffix(p: Part): string {
    match p
    case Intro => "_intro"
    case Development => "_development"
    case Conclusion => "_conclusion"
  }

  /** One `generate_image` call per section, titled `{base}_intro` and so on. */
  function ImageResults<Tok>(captions: Sections<string>, base: string, s: Services<Tok>, clocks: Clocks): (r: Sections<ImageResult>)
    requires ValidClocks(clocks)
    ensures forall p :: r.Get(p) == GenerateImage(captions.Get(p), base + ImageSuffix(p), s.clip, s.pipe,
                                                  s.imageModelId, clocks.images.Get(p))
    ensures forall p :: r.Get(p).Saved? ==> r.Get(p).url != ""
  {
    Sections(
      GenerateImage(captions.intro, base + "_intro", s.clip, s.pipe, s.imageModelId, clocks.images.intro),
      GenerateImage(captions.development, base + "_development", s.clip, s.pipe, s.imageModelId, clocks.images.development),
      GenerateImage(captions.conclusion, base + "_conclusion", s.clip, s.pipe, s.imageModelId, clocks.images.conclusion))
  }

  /** The image files written, in section order. */
  function ImageEffects(imgs: Sections<ImageResult>): seq<Effect> {
    (if imgs.intro.Saved? then [ImageWritten(imgs.intro.path)] else [])
    + (if imgs.development.Saved? then [ImageWritten(imgs.development.path)] else [])
    + (if imgs.conclusion.Saved? then [ImageWritten(imgs.conclusion.path)] else [])
  }

  /** Every effect of the drawing step is a written picture. */
  lemma ImageEffectsWritten(imgs: Sections<ImageResult>)
    ensures forall j :: 0 <= j < |ImageEffects(imgs)| ==> ImageEffects(imgs)[j].ImageWritten?
  {
    var es := ImageEffects(imgs);
    assert forall e :: e in es ==> e.ImageWritten?;
    forall j | 0 <= j < |es| ensures es[j].ImageWritten? {
      assert es[j] in es;
    }
  }

  /** How many of the three image fields hold a URL. */
  function CountNonEmpty(images: Sections<string>): nat {
    (if images.intro != "" then 1 else 0)
    + (if images.development != "" then 1 else 0)
    + (if images.conclusion != "" then 1 else 0)
  }

  /** The three image fields of the row: `generate_image(...) or ""`. One
      file was written for every field that is not empty. */
  function ImageFields(imgs: Sections<ImageResult>): (r: Sections<string>)
    requires forall p :: imgs.Get(p).Saved? ==> imgs.Get(p).url != ""
    ensures forall p :: r.Get(p) == imgs.Get(p).UrlOrEmpty()
    ensures forall p :: r.Get(p) == "" <==> imgs.Get(p).NoImage?
    ensures |ImageEffects(imgs)| == CountNonEmpty(r)
    ensures forall j :: 0 <= j < |ImageEffects(imgs)| ==> ImageEffects(imgs)[j].ImageWritten?
  {
    assert imgs.Get(Intro) == imgs.intro && imgs.Get(Development) == imgs.development
      && imgs.Get(Conclusion) == imgs.conclusion;
    ImageEffectsWritten(imgs);
    Sections(imgs.intro.UrlOrEmpty(), imgs.development.UrlOrEmpty(), imgs.conclusion.UrlOrEmpty())
  }

  /** The steps both routes share once the text is accepted: summarize,
      translate each section, draw each section, commit the row, export. */
  function Pipeline<Tok>(text: string, title: string, imageBase: string, exportName: string,
                         s: Services<Tok>, clocks: Clocks, saved: ExportOutcome): (r: Run)
    requires ValidClocks(clocks)
    ensures r.response.Rejected? == false
    ensures r.response.ServerError? <==> s.summarize(s.clean(text)).None?
    ensures r.response.ServerError? ==> r.effects == []
    ensures r.response.Created? ==>
      var d := s.summarize(s.clean(text)).value;
      var row := r.response.row;
      var imgs := ImageResults(Captions(d, s.translator), imageBase, s, clocks);
      && row.title == title
      && row.sections == d
      && row.timestamp == clocks.row
      && row.modelName == s.summaryModelName
      && (forall p :: row.images.Get(p) == imgs.Get(p).UrlOrEmpty())
      && (forall p :: row.images.Get(p) == "" <==> imgs.Get(p).NoImage?)
    ensures r.response.Created? ==>
      var row := r.response.row;
      var k := CountNonEmpty(row.images);
      var imgs := ImageResults(Captions(s.summarize(s.clean(text)).value, s.translator), imageBase, s, clocks);
      && |r.effects| == k + 1 + (if saved.NotOpened? then 0 else 1)
      && r.effects[..k] == ImageEffects(imgs)
      && (forall j :: 0 <= j < k ==> r.effects[j].ImageWritten?)
      && r.effects[k] == RowCommitted(row)
      && r.effects[k + 1..] == SaveSummaryToFile(row, exportName, saved)
      && (saved.Completed? ==> r.effects[k + 1] == ExportWritten(ExportPath(exportName, row), DigestBody(row.sections)))
  {
    match s.summarize(s.clean(text))
    case None => Run(ServerError, [])
    case Some(d) =>
      var imgs := ImageResults(Captions(d, s.translator), imageBase, s, clocks);
      var row := Summary(title, d, clocks.row, s.summaryModelName, ImageFields(imgs));
      ImageEffectsWritten(imgs);
      Run(Created(row), CreatedEffects(ImageEffects(imgs), row, exportName, saved))
  }

  /** What a created run leaves, in order: the pictures, the committed
      row, then whatever the export wrote. */
  function CreatedEffects(pictures: seq<Effect>, row: Summary, exportName: string, saved: ExportOutcome): (r: seq<Effect>)
    requires Valid(row.timestamp)
    requires forall j :: 0 <= j < |pictures| ==> pictures[j].ImageWritten?
    ensures var k := |pictures|;
      && |r| == k + 1 + (if saved.NotOpened? then 0 else 1)
      && r[..k] == pictures
      && (forall j :: 0 <= j < k ==> r[j].ImageWritten?)
      && r[k] == RowCommitted(row)
      && r[k + 1..] == SaveSummaryToFile(row, exportName, saved)
      && (saved.Completed? ==> r[k + 1] == ExportWritten(ExportPath(exportName, row), DigestBody(row.sections)))
  {
    var b := SaveSummaryToFile(row, exportName, saved);
    AroundOne(pictures, RowCommitted(row), b);
    pictures + [RowCommitted(row)] + b
  }

  /** The parts of `a + [x] + b`, found at their places. */
  lemma AroundOne<T>(a: seq<T>, x: T, b: seq<T>)
    ensures var r := a + [x] + b;
      && |r| == |a| + 1 + |b|
      && r[..|a|] == a
      && (forall j :: 0 <= j < |a| ==> r[j] == a[j])
      && r[|a|] == x
      && r[|a| + 1..] == b
  {
  }

  /** The prefix of every artifact from a typed-text request. */
  function TypedBase(request: DateTime): string
    requires Valid(request)
  {
    "user_text_" + Format14(request)
  }

  /** The prefix holds no `/` and does not start with a dot. */
  lemma TypedBaseShape(request: DateTime)
    requires Valid(request)
    ensures '/' !in TypedBase(request) && TypedBase(request)[0] == 'u'
  {
    var stamp := Format14(request);
    assert '/' !in stamp by {
      forall i | 0 <= i < |stamp| ensures stamp[i] != '/' {
        assert IsDigit(stamp[i]);
      }
    }
    assert '/' !in "user_text_";
  }

  /** `index` on POST: validate the typed text, then run the pipeline with
      the fixed title and names derived from the request's own clock. */
  function RunTyped<Tok>(raw: string, s: Services<Tok>, clocks: Clocks, saved: ExportOutcome): (r: Run)
    requires ValidClocks(clocks)
    ensures r.response.Rejected? <==> ValidateTypedText(raw).Err?
    ensures r.response.Rejected? ==> r.response.reason == ValidateTypedText(raw).error && r.effects == []
    ensures r.response.ServerError? <==> ValidateTypedText(raw).Ok? && s.summarize(s.clean(Strip(raw))).None?
    ensures r.response.Created? ==>
      && r.response.row.title == UserTextTitle
      && r.response.row.sections == s.summarize(s.clean(Strip(raw))).value
  {
    match ValidateTypedText(raw)
    case Err(e) => Run(Rejected(e), [])
    case Ok(text) =>
      var base := TypedBase(clocks.request);
      Pipeline(text, UserTextTitle, base, base + ".txt", s, clocks, saved)
  }

  /** The outcome of the upload route's checks as written: the text to
      digest, a refusal, or an uncaught exception. */
  datatype Gate = Pass(text: string) | Stop(reason: Rejection) | Crash

  /** The upload checks as written (app.py:202-226). `original` is the name
      the browser sent, `secured` what `secure_filename` made of it;
      `readTxt` is the text file's content (`None` when reading raised) and
      `pdfText` what the PDF extraction produced. The extension is taken from
      `secured`, which need not contain a `.` even when `original` passed
      `allowed_file`; `rsplit('.', 1)[1]` then raises `IndexError`. */
  function UploadGateAsWritten(original: string, secured: string, readTxt: Option<string>, pdfText: string): Gate {
    if !AllowedFile(original) then Stop(NotAllowedFile)
    else
      match RFind(secured, '.')
      case None => Crash
      case Some(i) => ReadUpload(Lower(secured[i + 1..]), readTxt, pdfText)
  }

  /** `secured.rsplit('.', 1)[1].lower()`: the lower-cased text after the
      last `.` of the secured name. */
  function UploadExt(secured: string): (r: string)
    requires '.' in secured
    ensures exists i :: 0 <= i < |secured| && secured[i] == '.' && '.' !in secured[i + 1..] && r == Lower(secured[i + 1..])
  {
    var i := RFind(secured, '.').value;
    Lower(secured[i + 1..])
  }

  /** A file of extension `ext` that reads as text that is not blank. */
  predicate Readable(ext: string, readTxt: Option<string>, pdfText: string) {
    || (ext == "txt" && readTxt.Some? && !AllSpace(readTxt.value))
    || (ext == "pdf" && !AllSpace(pdfText))
  }

  /** Reading the upload once its extension is known. */
  function ReadUpload(ext: string, readTxt: Option<string>, pdfText: string): (r: Gate)
    ensures !r.Crash?
    ensures r.Pass? <==> Readable(ext, readTxt, pdfText)
    ensures r == Stop(ReadFailed) <==> ext == "txt" && readTxt.None?
    ensures r == Stop(UnsupportedType) <==> ext != "txt" && ext != "pdf"
    ensures r == Stop(NoTextInFile) <==>
      (ext == "txt" && readTxt.Some? && AllSpace(readTxt.value)) || (ext == "pdf" && AllSpace(pdfText))
    ensures r.Pass? ==> (ext == "txt" && readTxt == Some(r.text)) || (ext == "pdf" && pdfText == r.text)
    ensures r.Stop? ==> r.reason in {ReadFailed, UnsupportedType, NoTextInFile}
  {
    if ext == "txt" then
      match readTxt
      case None => Stop(ReadFailed)
      case Some(t) => (match ValidateUploadText(t) case Ok(t') => Pass(t') case Err(e) => Stop(e))
    else if ext == "pdf" then
      (match ValidateUploadText(pdfText) case Ok(t) => Pass(t) case Err(e) => Stop(e))
    else Stop(UnsupportedType)
  }

  /** A browser name `.txt` passes `allowed_file`, but `secure_filename`
      strips leading dots and returns `txt`, which has no `.`: the route
      raises instead of answering. */
  lemma UploadGateAsWrittenCrashes()
    ensures AllowedFile(".txt")
    ensures UploadGateAsWritten(".txt", "txt", Some("Bir zamanlar"), "") == Crash
  {
    assert AllowedFile(".txt") by {
      assert RFind(".txt", '.') == Some(0);
      assert ".txt"[1..] == "txt" && Lower("txt") == "txt";
    }
    assert RFind("txt", '.') == None;
  }

  /** The upload checks with a secured name that lost its extension
      treated as an unsupported file type. */
  function UploadGate(original: string, secured: string, readTxt: Option<string>, pdfText: string): (r: Gate)
    ensures !r.Crash?
    ensures r.Pass? ==> AllowedFile(original) && !AllSpace(r.text)
    ensures !AllowedFile(original) <==> r == Stop(NotAllowedFile)
    ensures r.Pass? <==> AllowedFile(original) && '.' in secured && Readable(UploadExt(secured), readTxt, pdfText)
    ensures r.Pass? ==> r.text == if UploadExt(secured) == "txt" then readTxt.value else pdfText
    ensures r == Stop(UnsupportedType) <==>
      AllowedFile(original) && ('.' !in secured || (UploadExt(secured) != "txt" && UploadExt(secured) != "pdf"))
  {
    if !AllowedFile(original) then Stop(NotAllowedFile)
    else
      match RFind(secured, '.')
      case None => Stop(UnsupportedType)
      case Some(i) => ReadUpload(Lower(secured[i + 1..]), readTxt, pdfText)
  }

  /** The corrected checks differ from the written ones only where those
      raise. */
  lemma UploadGateAgrees(original: string, secured: string, readTxt: Option<string>, pdfText: string)
    ensures UploadGateAsWritten(original, secured, readTxt, pdfText).Crash? <==>
      AllowedFile(original) && '.' !in secured
    ensures !UploadGateAsWritten(original, secured, readTxt, pdfText).Crash? ==>
      UploadGate(original, secured, readTxt, pdfText) == UploadGateAsWritten(original, secured, readTxt, pdfText)
    ensures UploadGateAsWritten(original, secured, readTxt, pdfText).Crash? ==>
      UploadGate(original, secured, readTxt, pdfText) == Stop(UnsupportedType)
  {
  }

  /** What the upload route does once its checks have an outcome: refuse,
      fail with HTTP 500, or run the pipeline titled by the secured name
      without its extension and export under the secured name. */
  function Route<Tok>(g: Gate, secured: string, s: Services<Tok>, clocks: Clocks, saved: ExportOutcome): (r: Run)
    requires ValidClocks(clocks)
    ensures r.response.Rejected? <==> g.Stop?
    ensures r.response.Rejected? ==> r.response.reason == g.reason && r.effects == []
    ensures r.response.ServerError? <==> g.Crash? || (g.Pass? && s.summarize(s.clean(g.text)).None?)
    ensures r.response.ServerError? ==> r.effects == []
    ensures r.response.Created? ==>
      && g.Pass?
      && r.response.row.title == SplitExt(secured).0
      && r.response.row.sections == s.summarize(s.clean(g.text)).value
  {
    match g
    case Stop(e) => Run(Rejected(e), [])
    case Crash => Run(ServerError, [])
    case Pass(text) =>
      var stem := SplitExt(secured).0;
      Pipeline(text, stem, stem, secured, s, clocks, saved)
  }

  /** `upload` on POST as written: the checks of `UploadGateAsWritten`,
      whose `IndexError` is an HTTP 500 with nothing stored. */
  function RunUpload<Tok>(original: string, secured: string, readTxt: Option<string>, pdfText: string,
                          s: Services<Tok>, clocks: Clocks, saved: ExportOutcome): (r: Run)
    requires ValidClocks(clocks)
    ensures r.response.Rejected? <==> UploadGateAsWritten(original, secured, readTxt, pdfText).Stop?
    ensures r.response.Rejected? ==>
      r.response.reason == UploadGateAsWritten(original, secured, readTxt, pdfText).reason && r.effects == []
    ensures AllowedFile(original) && '.' !in secured ==> r == Run(ServerError, [])
    ensures r.response.ServerError? ==> r.effects == []
    ensures r.response.Created? ==>
      && r.response.row.title == SplitExt(secured).0
      && AllowedFile(original) && '.' in secured
    ensures var g := UploadGateAsWritten(original, secured, readTxt, pdfText);
      r.response.ServerError? <==> g.Crash? || (g.Pass? && s.summarize(s.clean(g.text)).None?)
    ensures var g := UploadGateAsWritten(original, secured, readTxt, pdfText);
      r.response.Created? ==> g.Pass? && r.response.row.sections == s.summarize(s.clean(g.text)).value
  {
    UploadGateAgrees(original, secured, readTxt, pdfText);
    Route(UploadGateAsWritten(original, secured, readTxt, pdfText), secured, s, clocks, saved)
  }

  /** The route with the corrected checks: a secured name without a `.`
      is refused as an unsupported type, and every other request goes as
      written. */
  function RunUploadCorrected<Tok>(original: string, secured: string, readTxt: Option<string>, pdfText: string,
                                   s: Services<Tok>, clocks: Clocks, saved: ExportOutcome): (r: Run)
    requires ValidClocks(clocks)
    ensures r.response.ServerError? ==>
      var g := UploadGate(original, secured, readTxt, pdfText);
      g.Pass? && s.summarize(s.clean(g.text)).None? && r.effects == []
    ensures AllowedFile(original) && '.' !in secured ==> r == Run(Rejected(UnsupportedType), [])
    ensures !(AllowedFile(original) && '.' !in secured) ==> r == RunUpload(original, secured, readTxt, pdfText, s, clocks, saved)
  {
    UploadGateAgrees(original, secured, readTxt, pdfText);
    Route(UploadGate(original, secured, readTxt, pdfText), secured, s, clocks, saved)
  }

  /** Exported files go into the `summaries` folder. */
  lemma SummariesJoin(name: string)
    requires !StartsWith(name, "/")
    ensures PathJoin("summaries", name) == "summaries/" + name
  {
    assert !EndsWith("summaries", "/");
    assert "summaries" + "/" == "summaries/";
  }

  /** A name with `.txt` appended is exported under the bare name, the
      sanitised model name and the row's stamp. */
  lemma ExportPathOfStem(base: string, row: Summary)
    requires Valid(row.timestamp)
    requires '/' !in base && |base| > 0 && base[0] != '.'
    ensures ExportPath(base + ".txt", row) == "summaries/" + ArtifactName(base, row.modelName, row.timestamp, ".txt")
  {
    TxtStem(base);
    var name := ArtifactName(base, row.modelName, row.timestamp, ".txt");
    ArtifactNameRelative(base, row.modelName, row.timestamp);
    SummariesJoin(name);
  }

  /** `splitext` takes `.txt` back off a name that does not start with a
      dot. */
  lemma TxtStem(base: string)
    requires '/' !in base && |base| > 0 && base[0] != '.'
    ensures SplitExt(base + ".txt").0 == base
  {
    assert HasNonDot(base, 0, |base|) by {
      assert base[0] != '.';
    }
    assert base + ".txt" == base + "." + "txt";
    SplitExtAppended(base, "txt");
  }

  /** An artifact name starts with its base, so a base that does not start
      with `/` gives a relative path. */
  lemma ArtifactNameRelative(base: string, modelName: string, t: DateTime)
    requires Valid(t) && |base| > 0 && base[0] != '/'
    ensures !StartsWith(ArtifactName(base, modelName, t, ".txt"), "/")
  {
    var name := ArtifactName(base, modelName, t, ".txt");
    assert name[0] == (base + "_")[0];
  }

  /** The export of a typed-text request is named after the request's
      clock (`user_text_` and its stamp), the summary model, and the row's
      own, separately read, clock. */
  lemma TypedExportPath<Tok>(raw: string, s: Services<Tok>, clocks: Clocks)
    requires ValidClocks(clocks)
    ensures var r := RunTyped(raw, s, clocks, Completed);
      r.response.Created? ==>
        && |r.effects| > 0
        && r.effects[|r.effects| - 1].path ==
          "summaries/" + ArtifactName("user_text_" + Format14(clocks.request), s.summaryModelName, clocks.row, ".txt")
  {
    var base := TypedBase(clocks.request);
    var r := RunTyped(raw, s, clocks, Completed);
    if !r.response.Created? {
      return;
    }
    var row := r.response.row;
    assert r == Pipeline(Strip(raw), UserTextTitle, base, base + ".txt", s, clocks, Completed);
    var k := CountNonEmpty(row.images);
    assert |r.effects| == k + 2 && r.effects[k + 1].path == ExportPath(base + ".txt", row);
    TypedBaseShape(clocks.request);
    ExportPathOfStem(base, row);
  }

  /** A failed export changes neither the response nor anything written
      before it: the row stays committed. */
  lemma ExportFailureKeepsRow<Tok>(raw: string, s: Services<Tok>, clocks: Clocks)
    requires ValidClocks(clocks)
    ensures var ok := RunTyped(raw, s, clocks, Completed);
            var failed := RunTyped(raw, s, clocks, NotOpened);
      && failed.response == ok.response
      && (ok.response.Created? ==> failed.effects == ok.effects[..|ok.effects| - 1])
      && (failed.response.Created? ==> RowCommitted(failed.response.row) in failed.effects)
  {
  }

  /** An export cut short by a failing write changes neither the response
      nor anything written before it, and leaves at the same path a file
      holding the start of the digest a completed export writes. */
  lemma CutExportKeepsRow<Tok>(raw: string, s: Services<Tok>, clocks: Clocks, kept: nat)
    requires ValidClocks(clocks)
    ensures var ok := RunTyped(raw, s, clocks, Completed);
            var cut := RunTyped(raw, s, clocks, Cut(kept));
      && cut.response == ok.response
      && |cut.effects| == |ok.effects|
      && (ok.response.Created? ==>
        var n := |ok.effects| - 1;
        && cut.effects[..n] == ok.effects[..n]
        && cut.effects[n].ExportWritten? && ok.effects[n].ExportWritten?
        && cut.effects[n].path == ok.effects[n].path
        && cut.effects[n].body <= ok.effects[n].body)
  {
    match ValidateTypedText(raw)
    case Err(_) =>
    case Ok(text) =>
      var base := TypedBase(clocks.request);
      ExportOnlyLast(text, UserTextTitle, base, base + ".txt", s, clocks, Cut(kept));
  }

  /** The outcome of the export decides only what follows the committed
      row: the response and every earlier effect are those of a completed
      export. */
  lemma ExportOnlyLast<Tok>(text: string, title: string, imageBase: string, exportName: string,
                            s: Services<Tok>, clocks: Clocks, saved: ExportOutcome)
    requires ValidClocks(clocks)
    ensures var ok := Pipeline(text, title, imageBase, exportName, s, clocks, Completed);
            var run := Pipeline(text, title, imageBase, exportName, s, clocks, saved);
      && run.response == ok.response
      && (ok.response.Created? ==>
        var n := |ok.effects| - 1;
        && n <= |run.effects|
        && run.effects[..n] == ok.effects[..n]
        && run.effects[n..] == SaveSummaryToFile(ok.response.row, exportName, saved))
  {
    match s.summarize(s.clean(text))
    case None =>
    case Some(d) =>
      var imgs := ImageResults(Captions(d, s.translator), imageBase, s, clocks);
      var row := Summary(title, d, clocks.row, s.summaryModelName, ImageFields(imgs));
      var pictures := ImageEffects(imgs);
      ImageEffectsWritten(imgs);
      var ok := CreatedEffects(pictures, row, exportName, Completed);
      var run := CreatedEffects(pictures, row, exportName, saved);
      AroundOne(pictures, RowCommitted(row), SaveSummaryToFile(row, exportName, Completed));
      AroundOne(pictures, RowCommitted(row), SaveSummaryToFile(row, exportName, saved));
  }
}

=== FILE: config_loader.dfy ===
/** `config_loader.py`: the `key=value` file reader. The file's lines (as
    `readlines` returns them, line breaks included) are the input, `None`
    when opening or reading the file raised. */
module ConfigLoader {
  import opened Wrappers
  import opened PyStr

  /** A line that sets a key: it holds `=` and, once stripped, does not
      start with `#`. */
  predicate IsEntry(line: string) {
    '=' in line && !StartsWith(Strip(line), "#")
  }

  /** The key and value a setting line gives: the stripped line split at
      its first `=`, both halves stripped. */
  function Entry(line: string): (r: (string, string))
    requires IsEntry(line)
    ensures '=' !in r.0
    ensures Stripped(r.0) && Stripped(r.1)
  {
    StripKeepsNonSpace(line, '=');
    var parts := SplitOnce(Strip(line), '=');
    StripKeepsNonSpace(parts.0, '=');
    (Strip(parts.0), Strip(parts.1))
  }

  /** A line whose first `=` is at `i`, and which is not a comment once
      stripped, sets the stripped text before that `=` to the stripped text
      after it: only the first `=` splits, so the value may hold more, and
      the whitespace `strip()` removes first (a line break included) makes
      no difference. */
  lemma EntryAt(line: string, i: nat)
    requires i < |line| && line[i] == '=' && '=' !in line[..i]
    requires !StartsWith(Strip(line), "#")
    ensures IsEntry(line)
    ensures Entry(line) == (Strip(line[..i]), Strip(line[i + 1..]))
  {
    assert line[i] in line;
    KeyPart(line, i);
    ValuePart(line, i);
  }

  /** The key: the stripped line up to its first `=` strips to the raw
      line up to its first `=`, stripped. */
  lemma KeyPart(line: string, i: nat)
    requires i < |line| && line[i] == '=' && '=' !in line[..i]
    ensures '=' in Strip(line)
    ensures Strip(SplitOnce(Strip(line), '=').0) == Strip(line[..i])
  {
    var k, m := StripCore(line);
    SplitInCore(line, Strip(line), i, k, m);
    StripFromSpace(line, k, i);
  }

  /** The value: the stripped line after its first `=` strips to the raw
      line after its first `=`, stripped. */
  lemma ValuePart(line: string, i: nat)
    requires i < |line| && line[i] == '=' && '=' !in line[..i]
    ensures '=' in Strip(line)
    ensures Strip(SplitOnce(Strip(line), '=').1) == Strip(line[i + 1..])
  {
    var k, m := StripCore(line);
    ValueInCore(line, Strip(line), i, k, m);
  }

  /** The value half of the middle `t` of a line strips like the raw line
      after its first `=`. */
  lemma ValueInCore(line: string, t: string, i: nat, k: nat, m: nat)
    requires i < |line| && line[i] == '=' && '=' !in line[..i]
    requires k + m <= |line| && t == line[k..k + m] && AllSpace(line[..k]) && AllSpace(line[k + m..])
    ensures '=' in t
    ensures Strip(SplitOnce(t, '=').1) == Strip(line[i + 1..])
  {
    SplitInCore(line, t, i, k, m);
    TailStrips(line, SplitOnce(t, '=').1, i, k + m);
  }

  /** The slice `v` of a line from after its `=` at `i` up to trailing
      whitespace strips like the whole rest of the line after `i`. */
  lemma TailStrips(line: string, v: string, i: nat, e: nat)
    requires i < e <= |line| && AllSpace(line[e..]) && v == line[i + 1..e]
    ensures Strip(v) == Strip(line[i + 1..])
  {
    StripSpaceSuffix(v, line[e..]);
    AfterJoin(line, i, e);
  }

  /** The slice after position `i` up to `e`, then the rest, is the whole
      rest after `i`. */
  lemma AfterJoin(line: string, i: nat, e: nat)
    requires i < e <= |line|
    ensures line[i + 1..e] + line[e..] == line[i + 1..]
  {
  }

  /** The middle `t` of a line cut into whitespace, `t` and whitespace
      splits at the line's first `=`, which lies inside `t`. */
  lemma SplitInCore(line: string, t: string, i: nat, k: nat, m: nat)
    requires i < |line| && line[i] == '=' && '=' !in line[..i]
    requires k + m <= |line| && t == line[k..k + m] && AllSpace(line[..k]) && AllSpace(line[k + m..])
    ensures k <= i < k + m && '=' in t
    ensures SplitOnce(t, '=').0 == line[k..i] && SplitOnce(t, '=').1 == line[i + 1..k + m]
  {
    EqualsInCore(line, i, k, m);
    assert t[i - k] in t;
    FirstIndexIs(t, '=', i - k);
  }

  /** The first `=` of a line lies inside its stripped part, and is the
      first `=` there too. */
  lemma EqualsInCore(line: string, i: nat, k: nat, m: nat)
    requires i < |line| && line[i] == '=' && '=' !in line[..i]
    requires k + m <= |line| && AllSpace(line[..k]) && AllSpace(line[k + m..])
    ensures k <= i < k + m
    ensures var t := line[k..k + m];
      && t[i - k] == '=' && '=' !in t[..i - k]
      && t[..i - k] == line[k..i] && t[i - k + 1..] == line[i + 1..k + m]
  {
    assert !IsSpace('=');
    SpaceBefore(line, k, i);
    SpaceAfter(line, k + m, i);
    var t := line[k..k + m];
    assert t[..i - k] == line[k..i];
    assert forall c :: c in line[k..i] ==> c in line[..i] by {
      forall c | c in line[k..i] ensures c in line[..i] {
        var x :| 0 <= x < i - k && line[k..i][x] == c;
        assert line[..i][k + x] == c;
      }
    }
  }

  /** The value the last setting line for `key` gives, if any: the
      reference meaning of the loaded map. */
  function LastEntry(lines: seq<string>, key: string): Option<string> {
    if lines == [] then None
    else
      var last := lines[|lines| - 1];
      if IsEntry(last) && Entry(last).0 == key then Some(Entry(last).1)
      else LastEntry(lines[..|lines| - 1], key)
  }

  /** `keys` holds exactly what the setting lines of `lines` give, the
      last line for a key winning. */
  ghost predicate Agrees(keys: map<string, string>, lines: seq<string>) {
    forall key ::
      && (key in keys <==> LastEntry(lines, key).Some?)
      && (key in keys ==> keys[key] == LastEntry(lines, key).value)
  }

  /** The loop body: a setting line stores its key's value. */
  function Apply(keys: map<string, string>, line: string): map<string, string> {
    if IsEntry(line) then keys[Entry(line).0 := Entry(line).1] else keys
  }

  /** Reading one more line: it decides its own key, the earlier lines
      decide the rest. */
  lemma LastEntrySnoc(lines: seq<string>, line: string, key: string)
    ensures LastEntry(lines + [line], key) ==
      if IsEntry(line) && Entry(line).0 == key then Some(Entry(line).1) else LastEntry(lines, key)
  {
    var next := lines + [line];
    assert next[..|next| - 1] == lines && next[|next| - 1] == line;
  }

  /** The loop body keeps the map in agreement with the lines read. */
  lemma ApplyAgrees(keys: map<string, string>, lines: seq<string>, line: string)
    requires Agrees(keys, lines)
    ensures Agrees(Apply(keys, line), lines + [line])
  {
    forall key
      ensures key in Apply(keys, line) <==> LastEntry(lines + [line], key).Some?
      ensures key in Apply(keys, line) ==> Apply(keys, line)[key] == LastEntry(lines + [line], key).value
    {
      LastEntrySnoc(lines, line, key);
    }
  }

  /** `load_keys_from_file`: every setting line in order, a later line for
      the same key overriding an earlier one; an empty map when the file
      could not be read. */
  method LoadKeysFromFile(file: Option<seq<string>>) returns (keys: map<string, string>)
    ensures file.None? ==> keys == map[]
    ensures file.Some? ==> forall key ::
      && (key in keys <==> LastEntry(file.value, key).Some?)
      && (key in keys ==> keys[key] == LastEntry(file.value, key).value)
  {
    keys := map[];
    if file.None? {
      return;
    }
    var lines := file.value;
    var i := 0;
    while i < |lines|
      invariant 0 <= i <= |lines|
      invariant Agrees(keys, lines[..i])
    {
      ApplyAgrees(keys, lines[..i], lines[i]);
      assert lines[..i + 1] == lines[..i] + [lines[i]];
      if IsEntry(lines[i]) {
        var entry := Entry(lines[i]);
        keys := keys[entry.0 := entry.1];
      }
      i := i + 1;
    }
    assert lines[..i] == lines;
  }

  /** The `=` test on the raw line agrees with the same test on the
      stripped line that is then split. */
  lemma EqualsSurvivesStrip(line: string)
    ensures '=' in line <==> '=' in Strip(line)
  {
    assert !IsSpace('=');
    StripKeepsNonSpace(line, '=');
  }
}

=== FILE: cosine_similarity.dfy ===
/** `cosine_similarity.py`: the extractive reference summary. Every
    sentence gets a similarity score against the whole text; the top sixth
    by `(score, index)` is kept and put back in text order. The sentence
    splitter and the embedding model are left out: the sentences and their
    scores are inputs, scores abstracted to integers. */
module CosineSimilarity {
  import opened PyStr
  import opened PyPath

  /** One `(score, index)` pair of `zip(similarity_scores, range(n))`. */
  datatype Ranked = Ranked(score: int, index: nat)

  /** The two orders the script sorts by. */
  datatype Order =
    | ByRank   // sorted(..., reverse=True): larger score first, ties by larger index
    | ByIndex  // sorted(..., key=lambda x: x[1]): text order

  /** `a` comes strictly before `b` in order `o`. */
  predicate Before(o: Order, a: Ranked, b: Ranked) {
    match o
    case ByRank => a.score > b.score || (a.score == b.score && a.index > b.index)
    case ByIndex => a.index < b.index
  }

  predicate Sorted(o: Order, s: seq<Ranked>) {
    forall i, j :: 0 <= i < j < |s| ==> Before(o, s[i], s[j])
  }

  predicate DistinctIndices(s: seq<Ranked>) {
    forall i, j :: 0 <= i < j < |s| ==> s[i].index != s[j].index
  }

  /** Both orders are total on pairs with distinct indices. */
  lemma Total(o: Order, a: Ranked, b: Ranked)
    requires a.index != b.index
    ensures Before(o, a, b) || Before(o, b, a)
  {
  }

  /** A head that comes before every element of a sorted tail keeps the
      list sorted. */
  lemma SortedCons(o: Order, h: Ranked, t: seq<Ranked>)
    requires Sorted(o, t) && DistinctIndices(t)
    requires forall e :: e in t ==> Before(o, h, e) && h.index != e.index
    ensures Sorted(o, [h] + t) && DistinctIndices([h] + t)
  {
    forall i, j | 0 <= i < j < |[h] + t|
      ensures Before(o, ([h] + t)[i], ([h] + t)[j]) && ([h] + t)[i].index != ([h] + t)[j].index
    {
      if i == 0 {
        assert ([h] + t)[j] == t[j - 1];
      } else {
        assert ([h] + t)[i] == t[i - 1] && ([h] + t)[j] == t[j - 1];
      }
    }
  }

  /** An element before the head of a sorted list is before all of it. */
  lemma BeforeAll(o: Order, x: Ranked, s: seq<Ranked>)
    requires Sorted(o, s) && s != [] && Before(o, x, s[0])
    ensures forall e :: e in s ==> Before(o, x, e)
  {
    forall e | e in s ensures Before(o, x, e) {
      var j :| 0 <= j < |s| && s[j] == e;
      assert j == 0 || Before(o, s[0], s[j]);
    }
  }

  /** The head of a sorted list that `x` does not precede comes before
      everything in the tail with `x` inserted. */
  lemma InsertedAfterHead(o: Order, x: Ranked, s: seq<Ranked>, t: seq<Ranked>)
    requires Sorted(o, s) && DistinctIndices(s) && s != [] && !Before(o, x, s[0])
    requires forall e :: e in s ==> e.index != x.index
    requires multiset(t) == multiset(s[1..]) + multiset{x}
    ensures forall e :: e in t ==> Before(o, s[0], e) && s[0].index != e.index
  {
    forall e | e in t ensures Before(o, s[0], e) && s[0].index != e.index {
      assert e in multiset(t);
      if e == x {
        assert s[0] in s;
        Total(o, x, s[0]);
      } else {
        assert e in multiset(s[1..]);
        var j :| 0 <= j < |s[1..]| && s[1..][j] == e;
        assert s[j + 1] == e;
      }
    }
  }

  /** Insert `x` into its place in a sorted list. */
  function Insert(o: Order, x: Ranked, s: seq<Ranked>): (r: seq<Ranked>)
    requires Sorted(o, s) && DistinctIndices(s)
    requires forall e :: e in s ==> e.index != x.index
    ensures multiset(r) == multiset(s) + multiset{x}
    ensures Sorted(o, r) && DistinctIndices(r)
  {
    if s == [] then [x]
    else if Before(o, x, s[0]) then
      BeforeAll(o, x, s);
      SortedCons(o, x, s);
      [x] + s
    else
      var t := Insert(o, x, s[1..]);
      InsertedAfterHead(o, x, s, t);
      SortedCons(o, s[0], t);
      assert multiset([s[0]] + t) == multiset(s) + multiset{x} by {
        assert s == [s[0]] + s[1..];
      }
      [s[0]] + t
  }

  /** A rearranged tail holds none of the head's index. */
  lemma TailIndices(s: seq<Ranked>, t: seq<Ranked>)
    requires DistinctIndices(s) && s != [] && multiset(t) == multiset(s[1..])
    ensures forall e :: e in t ==> e.index != s[0].index
  {
    forall e | e in t ensures e.index != s[0].index {
      assert e in multiset(s[1..]);
      var j :| 0 <= j < |s[1..]| && s[1..][j] == e;
      assert s[j + 1] == e;
    }
  }

  /** Insertion sort: Python's `sorted` for these orders, which are total
      on pairs with distinct indices. */
  function Sort(o: Order, s: seq<Ranked>): (r: seq<Ranked>)
    requires DistinctIndices(s)
    ensures multiset(r) == multiset(s)
    ensures Sorted(o, r) && DistinctIndices(r)
  {
    if s == [] then []
    else
      var t := Sort(o, s[1..]);
      TailIndices(s, t);
      var r := Insert(o, s[0], t);
      assert multiset(r) == multiset(s) by {
        assert s == [s[0]] + s[1..];
      }
      r
  }

  /** `zip(similarity_scores, range(len(sentences)))`. */
  function Pairs(scores: seq<int>): (r: seq<Ranked>)
    ensures |r| == |scores|
    ensures forall i :: 0 <= i < |r| ==> r[i] == Ranked(scores[i], i)
    ensures DistinctIndices(r)
  {
    seq(|scores|, i requires 0 <= i < |scores| => Ranked(scores[i], i))
  }

  /** The indices of a list of pairs, in order. */
  function Indices(s: seq<Ranked>): (r: seq<nat>)
    ensures |r| == |s| && forall i :: 0 <= i < |s| ==> r[i] == s[i].index
  {
    seq(|s|, i requires 0 <= i < |s| => s[i].index)
  }

  /** A sorted permutation of the pairs, cut to its first `k`, and the
      same first `k` in another order: the shape of the selection. */
  ghost predicate Selection(scores: seq<int>, ranked: seq<Ranked>, k: nat, chosen: seq<Ranked>) {
    && multiset(ranked) == multiset(Pairs(scores))
    && Sorted(ByRank, ranked) && k <= |ranked|
    && multiset(chosen) == multiset(ranked[..k])
  }

  /** Where a chosen pair sits in the ranking: within the first `k`. */
  lemma ChosenPosition(scores: seq<int>, ranked: seq<Ranked>, k: nat, chosen: seq<Ranked>, a: nat)
    returns (p: nat)
    requires Selection(scores, ranked, k, chosen) && a < |chosen|
    ensures p < k && ranked[p] == chosen[a]
    ensures chosen[a].index < |scores| && chosen[a] == Ranked(scores[chosen[a].index], chosen[a].index)
  {
    assert chosen[a] in multiset(ranked[..k]);
    p :| 0 <= p < k && ranked[..k][p] == chosen[a];
    assert ranked[p] in multiset(Pairs(scores));
    var i :| 0 <= i < |Pairs(scores)| && Pairs(scores)[i] == ranked[p];
  }

  /** Where pair `j` sits in the ranking; a place within the first `k`
      would make it chosen. */
  lemma PairPosition(scores: seq<int>, ranked: seq<Ranked>, k: nat, chosen: seq<Ranked>, j: nat)
    returns (q: nat)
    requires Selection(scores, ranked, k, chosen) && j < |scores|
    ensures q < |ranked| && ranked[q] == Ranked(scores[j], j)
    ensures q < k ==> j in Indices(chosen)
  {
    assert Pairs(scores)[j] in multiset(ranked);
    q :| 0 <= q < |ranked| && ranked[q] == Pairs(scores)[j];
    if q < k {
      assert ranked[..k][q] == ranked[q];
      assert ranked[q] in multiset(chosen);
      var c :| 0 <= c < |chosen| && chosen[c] == ranked[q];
      assert Indices(chosen)[c] == j;
    }
  }

  /** A prefix keeps distinct indices distinct. */
  lemma PrefixDistinct(s: seq<Ranked>, k: nat)
    requires DistinctIndices(s) && k <= |s|
    ensures DistinctIndices(s[..k])
  {
    var top := s[..k];
    forall i, j | 0 <= i < j < |top| ensures top[i].index != top[j].index {
      assert top[i] == s[i] && top[j] == s[j];
    }
  }

  /** Every chosen pair is a sentence's own score and index. */
  lemma ChosenPairs(scores: seq<int>, ranked: seq<Ranked>, k: nat, chosen: seq<Ranked>)
    requires Selection(scores, ranked, k, chosen)
    ensures forall a :: 0 <= a < |chosen| ==>
      chosen[a].index < |scores| && chosen[a] == Ranked(scores[chosen[a].index], chosen[a].index)
  {
    forall a | 0 <= a < |chosen|
      ensures chosen[a].index < |scores| && chosen[a] == Ranked(scores[chosen[a].index], chosen[a].index)
    {
      var _ := ChosenPosition(scores, ranked, k, chosen, a);
    }
  }

  /** Every index outside the selection belongs to a pair ranked below all
      selected pairs. */
  lemma TopBeatsRest(scores: seq<int>, ranked: seq<Ranked>, k: nat, chosen: seq<Ranked>)
    requires Selection(scores, ranked, k, chosen)
    ensures forall a :: 0 <= a < |chosen| ==> chosen[a].index < |scores|
    ensures forall a, j :: 0 <= a < |chosen| && 0 <= j < |scores| && j !in Indices(chosen) ==>
      Before(ByRank, chosen[a], Ranked(scores[j], j))
  {
    forall a | 0 <= a < |chosen| ensures chosen[a].index < |scores| {
      var _ := ChosenPosition(scores, ranked, k, chosen, a);
    }
    forall a, j | 0 <= a < |chosen| && 0 <= j < |scores| && j !in Indices(chosen)
      ensures Before(ByRank, chosen[a], Ranked(scores[j], j))
    {
      var p := ChosenPosition(scores, ranked, k, chosen, a);
      var q := PairPosition(scores, ranked, k, chosen, j);
      assert p < q;
    }
  }

  /** `selected_sentences_indices`, as indices: the first `total // 6`
      pairs of the ranking, re-sorted into text order. */
  function SelectedIndices(scores: seq<int>): (r: seq<nat>)
    ensures |r| == |scores| / 6
    ensures forall a, b :: 0 <= a < b < |r| ==> r[a] < r[b]
    ensures forall a :: 0 <= a < |r| ==> r[a] < |scores|
    ensures forall a, j :: 0 <= a < |r| && 0 <= j < |scores| && j !in r ==>
      scores[r[a]] > scores[j] || (scores[r[a]] == scores[j] && r[a] > j)
  {
    var pairs := Pairs(scores);
    var ranked := Sort(ByRank, pairs);
    var k := |scores| / 6;
    assert |ranked| == |pairs| by {
      assert |multiset(ranked)| == |multiset(pairs)|;
    }
    var top := ranked[..k];
    PrefixDistinct(ranked, k);
    var chosen := Sort(ByIndex, top);
    assert |chosen| == k by {
      assert |multiset(chosen)| == |multiset(top)|;
    }
    TopBeatsRest(scores, ranked, k, chosen);
    var r := Indices(chosen);
    ChosenPairs(scores, ranked, k, chosen);
    r
  }

  /** `summary_sentences`: the selected sentences in text order. */
  function SummarySentences(sentences: seq<string>, scores: seq<int>): (r: seq<string>)
    requires |sentences| == |scores|
    ensures |r| == |sentences| / 6
    ensures forall i :: 0 <= i < |r| ==> r[i] == sentences[SelectedIndices(scores)[i]]
  {
    var picked := SelectedIndices(scores);
    seq(|picked|, i requires 0 <= i < |picked| => sentences[picked[i]])
  }

  /** `reference_summary`: the selected sentences separated by single
      spaces; empty when there are fewer than six sentences. */
  function ReferenceSummary(sentences: seq<string>, scores: seq<int>): (r: string)
    requires |sentences| == |scores|
    ensures |sentences| < 6 <==> SummarySentences(sentences, scores) == []
    ensures |sentences| < 6 ==> r == ""
    ensures r == Join(" ", SummarySentences(sentences, scores))
  {
    Join(" ", SummarySentences(sentences, scores))
  }

  /** A character missing from a string is missing from its prefixes. */
  lemma NoCharInPrefix(a: string, b: string, c: char)
    requires c !in a + b
    ensures c !in a
  {
    assert forall i :: 0 <= i < |a| ==> a[i] == (a + b)[i];
  }

  /** The folder the summary is written to. */
  const SummariesFolder := "cos_sim_summaries"

  /** The summary's path: the input's base name without its extension,
      plus `.txt`, in the summaries folder. */
  function SummaryPath(filePath: string): (r: string)
    ensures r == SummariesFolder + "/" + (SplitExt(Basename(filePath)).0 + ".txt")
  {
    var name := Basename(filePath);
    var stem := SplitExt(name).0;
    NoCharInPrefix(stem, SplitExt(name).1, '/');
    var file := stem + ".txt";
    assert !StartsWith(file, "/") by {
      assert file[0] != '/';
    }
    assert !EndsWith(SummariesFolder, "/");
    PathJoin(SummariesFolder, file)
  }

  /** A path `dir/b.e` with a plain base name `b` and extension `e` gives
      `cos_sim_summaries/b.txt`. */
  lemma SummaryPathOf(dir: string, b: string, e: string)
    requires '/' !in b && HasNonDot(b, 0, |b|)
    requires '.' !in e && '/' !in e
    ensures SummaryPath(dir + "/" + b + "." + e) == SummariesFolder + "/" + (b + ".txt")
  {
    var p := dir + "/" + b + "." + e;
    var name := b + "." + e;
    assert p == (dir + "/") + name;
    assert '/' !in name;
    RFindIsLast(p, '/', |dir|);
    assert Basename(p) == name;
    SplitExtAppended(b, e);
  }
}

=== FILE: digest.dfy ===
/** The three-part digest every component shares: introduction
    ("Giriş"), development ("Gelişme") and conclusion ("Sonuç"). */
module Digest {

  /** The sections, in the order the application always visits them. */
  datatype Part = Intro | Development | Conclusion

  const Parts: seq<Part> := [Intro, Development, Conclusion]

  /** The heading that labels a section in the exported text file. */
  function Header(p: Part): string {
    match p
    case Intro => "Giriş"
    case Development => "Gelişme"
    case Conclusion => "Sonuç"
  }

  /** One value per section. */
  datatype Sections<T> = Sections(intro: T, development: T, conclusion: T) {

    function Get(p: Part): T {
      match p
      case Intro => intro
      case Development => development
      case Conclusion => conclusion
    }
  }
}

=== FILE: digest_roundtrip.dfy ===
/** The exported digest file and the batch script's parser agree: reading
    back a file written by `save_summary_to_file` recovers the three
    sections, provided each section is already stripped, holds no blank
    line, and no earlier section mentions a later section's heading. */
module DigestRoundTrip {
  import opened Wrappers
  import opened PyStr
  import opened Digest
  import opened App
  import opened VisionModelTest

  /** Where an occurrence in `a + b` can come from: `a`, `b`, or a window
      that covers the last character of `a` and the first of `b`. */
  lemma OccursInJoin(a: string, b: string, pat: string, k: int)
    ensures OccursAt(a + b, pat, k) ==>
      || OccursAt(a, pat, k)
      || OccursAt(b, pat, k - |a|)
      || (k < |a| < k + |pat| && pat[|a| - 1 - k] == a[|a| - 1] && pat[|a| - k] == b[0])
  {
    if OccursAt(a + b, pat, k) {
      if k + |pat| <= |a| {
        assert (a + b)[k..k + |pat|] == a[k..k + |pat|];
      } else if |a| <= k {
        assert (a + b)[k..k + |pat|] == b[k - |a|..k - |a| + |pat|];
      } else {
        assert (a + b)[k..k + |pat|][|a| - 1 - k] == a[|a| - 1];
        assert (a + b)[k..k + |pat|][|a| - k] == b[0];
      }
    }
  }

  /** A pattern without line breaks found in neither half is not found
      in the whole when a line break sits at the seam. */
  lemma AbsentJoin(a: string, b: string, pat: string)
    requires Absent(a, pat) && Absent(b, pat)
    requires '\n' !in pat
    requires (|a| > 0 && a[|a| - 1] == '\n') || (|b| > 0 && b[0] == '\n')
    ensures Absent(a + b, pat)
  {
    forall k ensures !OccursAt(a + b, pat, k) {
      OccursInJoin(a, b, pat, k);
    }
  }

  /** Nothing starts before the seam when the first part lacks the pattern
      and ends with a line break (or is empty). */
  lemma NoEarlyOccurrence(a: string, b: string, pat: string)
    requires Absent(a, pat) && '\n' !in pat
    requires a == [] || a[|a| - 1] == '\n'
    ensures forall k :: k < |a| ==> !OccursAt(a + b, pat, k)
  {
    forall k | k < |a| ensures !OccursAt(a + b, pat, k) {
      OccursInJoin(a, b, pat, k);
    }
  }

  /** A string lacks any pattern whose first character it lacks. */
  lemma AbsentByFirstChar(s: string, pat: string)
    requires pat != [] && pat[0] !in s
    ensures Absent(s, pat)
  {
    forall k ensures !OccursAt(s, pat, k) {
      if 0 <= k && k + |pat| <= |s| {
        assert s[k..k + |pat|][0] == s[k];
      }
    }
  }

  /** No section marker holds a line break. */
  lemma LabelShape(p: Part)
    ensures '\n' !in Label(p) && |Label(p)| > 0 && Label(p)[0] != '\n'
  {
  }

  /** Two line breaks in a row are what `"\n\n"` matches. */
  lemma BlankAt(s: string, k: int)
    ensures OccursAt(s, "\n\n", k) <==> 0 <= k && k + 2 <= |s| && s[k] == '\n' && s[k + 1] == '\n'
  {
    if 0 <= k && k + 2 <= |s| {
      assert s[k..k + 2][0] == s[k] && s[k..k + 2][1] == s[k + 1];
      assert s[k] == '\n' && s[k + 1] == '\n' ==> s[k..k + 2] == "\n\n";
    }
  }

  /** `c` holds, from index `n`, the marker `L`, a line break, the
      section `x` and two line breaks. */
  ghost predicate Layout(c: string, n: nat, L: string, x: string) {
    && n + |L| + |x| + 3 <= |c|
    && c[n..n + |L|] == L
    && c[n + |L|] == '\n'
    && (forall i :: 0 <= i < |x| ==> c[n + |L| + 1 + i] == x[i])
    && c[n + |L| + 1 + |x|] == '\n'
    && c[n + |L| + 2 + |x|] == '\n'
  }

  /** A block placed after `P` has that layout. */
  lemma BlockChars(P: string, p: Part, x: string, S: string)
    ensures Layout(P + SectionBlock(p, x) + S, |P|, Label(p), x)
  {
    var block := SectionBlock(p, x);
    assert block == Label(p) + "\n" + x + "\n\n";
    var c := P + block + S;
    assert forall i :: 0 <= i < |block| ==> c[|P| + i] == block[i];
    assert c[|P|..|P| + |Label(p)|] == block[..|Label(p)|];
  }

  /** The first marker of `p` in `P + block + S` is the block's own. */
  lemma FirstMarker(P: string, p: Part, x: string, S: string)
    requires P == [] || P[|P| - 1] == '\n'
    requires Absent(P, Label(p))
    ensures Find(P + SectionBlock(p, x) + S, Label(p), 0) == Some(|P|)
  {
    var c := P + SectionBlock(p, x) + S;
    assert OccursAt(c, Label(p), |P|) by {
      BlockChars(P, p, x, S);
    }
    assert forall k :: 0 <= k < |P| ==> !OccursAt(c, Label(p), k) by {
      LabelShape(p);
      assert c == P + (SectionBlock(p, x) + S);
      NoEarlyOccurrence(P, SectionBlock(p, x) + S, Label(p));
    }
    FindAt(c, Label(p), 0, |P|);
  }

  /** Where the section laid out at `n` ends: right after the marker's line
      break when it is empty, otherwise right after the section. */
  function SectionEnd(n: nat, L: string, x: string): nat {
    n + |L| + (if x == [] then 0 else 1 + |x|)
  }

  /** The first blank line at or after the marker closes the section. */
  lemma FirstBlankLine(c: string, n: nat, L: string, x: string)
    requires Layout(c, n, L, x) && '\n' !in L
    requires Stripped(x) && Absent(x, "\n\n")
    ensures Find(c, "\n\n", n) == Some(SectionEnd(n, L, x))
  {
    var h := |L|;
    var e := SectionEnd(n, L, x);
    BlankAt(c, e);
    forall k | n <= k < e ensures !OccursAt(c, "\n\n", k) {
      BlankAt(c, k);
      if k < n + h {
        assert c[k] == c[n..n + h][k - n];
      } else if k == n + h {
        assert c[k + 1] == x[0];
      } else if k + 1 < e {
        BlankAt(x, k - n - h - 1);
      } else {
        assert c[k] == x[|x| - 1];
      }
    }
    FindAt(c, "\n\n", n, e);
  }

  /** The text between the marker and that blank line: a line break and
      the section, or nothing when the section is empty. */
  lemma BlockSlice(c: string, n: nat, L: string, x: string)
    requires Layout(c, n, L, x) && '\n' !in L
    requires Stripped(x) && Absent(x, "\n\n")
    ensures UpToBlankLine(c, n, n + |L|) == (if x == [] then [] else ['\n'] + x)
  {
    FirstBlankLine(c, n, L, x);
    AfterMarker(c, n, L, x);
  }

  /** What lies between the marker and the section's end. */
  lemma AfterMarker(c: string, n: nat, L: string, x: string)
    requires Layout(c, n, L, x)
    ensures c[n + |L|..SectionEnd(n, L, x)] == (if x == [] then [] else ['\n'] + x)
  {
    if x != [] {
      assert c[n + |L|..SectionEnd(n, L, x)] == ['\n'] + x;
    }
  }

  /** Stripping the text after a marker removes the line break that
      follows the marker and nothing of the section. */
  lemma StripAfterBreak(x: string)
    requires Stripped(x)
    ensures Strip(if x == [] then [] else ['\n'] + x) == x
  {
    if x != [] {
      StripSkipsLeadingSpace('\n', x);
    }
    StripStripped(x);
  }

  /** A section laid out right after the first marker `L` of `p` is read
      back. */
  lemma ExtractAt(c: string, n: nat, p: Part, L: string, x: string)
    requires L == Label(p) && Find(c, L, 0) == Some(n)
    requires Layout(c, n, L, x)
    requires Stripped(x) && Absent(x, "\n\n")
    ensures ExtractSection(c, p) == Some(x)
  {
    ExtractFound(c, L, n);
    var slice := UpToBlankLine(c, n, n + |L|);
    assert slice == (if x == [] then [] else ['\n'] + x) by {
      LabelShape(p);
      BlockSlice(c, n, L, x);
    }
    StripAfterBreak(x);
    assert SectionFrom(c, L, n) == x;
  }

  /** `process_file` reads a block's section back, wherever the block sits. */
  lemma ExtractBlock(P: string, p: Part, x: string, S: string)
    requires P == [] || P[|P| - 1] == '\n'
    requires Absent(P, Label(p))
    requires Stripped(x) && Absent(x, "\n\n")
    ensures ExtractSection(P + SectionBlock(p, x) + S, p) == Some(x)
  {
    FirstMarker(P, p, x, S);
    BlockChars(P, p, x, S);
    ExtractAt(P + SectionBlock(p, x) + S, |P|, p, Label(p), x);
  }

  /** A block lacks a later section's marker when its section does. */
  lemma BlockLacksMarker(p: Part, q: Part, x: string)
    requires Ordinal(p) < Ordinal(q)
    requires Absent(x, Label(q))
    ensures Absent(SectionBlock(p, x), Label(q))
  {
    LabelShape(q);
    var head := Header(p) + ":\n";
    if q == Conclusion {
      AbsentByFirstChar(head, Label(q));
    }
    AbsentJoin(head, x, Label(q));
    AbsentByFirstChar("\n\n", Label(q));
    AbsentJoin(head + x, "\n\n", Label(q));
  }

  /** Python's `pat not in s` is `Absent`. */
  lemma NotContainsAbsent(s: string, pat: string)
    requires !Contains(s, pat)
    ensures Absent(s, pat)
  {
    ContainsIffOccurs(s, pat);
  }

  /** The introduction is read back: its block comes first. */
  lemma IntroBack(d: Sections<string>)
    requires Stripped(d.intro) && Absent(d.intro, "\n\n")
    ensures ExtractSection(DigestBody(d), Intro) == Some(d.intro)
  {
    var b1 := SectionBlock(Intro, d.intro);
    var b2 := SectionBlock(Development, d.development);
    var b3 := SectionBlock(Conclusion, d.conclusion);
    assert DigestBody(d) == [] + b1 + (b2 + b3) by {
      assert [] + b1 == b1;
    }
    assert Absent([], Label(Intro)) by {
      LabelShape(Intro);
    }
    ExtractBlock([], Intro, d.intro, b2 + b3);
  }

  /** The development is read back when the introduction does not mention
      its heading. */
  lemma DevelopmentBack(d: Sections<string>)
    requires Stripped(d.development) && Absent(d.development, "\n\n")
    requires Absent(d.intro, Label(Development))
    ensures ExtractSection(DigestBody(d), Development) == Some(d.development)
  {
    var b1 := SectionBlock(Intro, d.intro);
    var b2 := SectionBlock(Development, d.development);
    var b3 := SectionBlock(Conclusion, d.conclusion);
    BlockLacksMarker(Intro, Development, d.intro);
    assert b1[|b1| - 1] == '\n';
    assert DigestBody(d) == b1 + b2 + b3;
    ExtractBlock(b1, Development, d.development, b3);
  }

  /** The conclusion is read back when neither earlier section mentions
      its heading. */
  lemma ConclusionBack(d: Sections<string>)
    requires Stripped(d.conclusion) && Absent(d.conclusion, "\n\n")
    requires Absent(d.intro, Label(Conclusion)) && Absent(d.development, Label(Conclusion))
    ensures ExtractSection(DigestBody(d), Conclusion) == Some(d.conclusion)
  {
    var b1 := SectionBlock(Intro, d.intro);
    var b2 := SectionBlock(Development, d.development);
    var b3 := SectionBlock(Conclusion, d.conclusion);
    BlockLacksMarker(Intro, Conclusion, d.intro);
    BlockLacksMarker(Development, Conclusion, d.development);
    LabelShape(Conclusion);
    assert b1[|b1| - 1] == '\n' && b2[|b2| - 1] == '\n';
    AbsentJoin(b1, b2, Label(Conclusion));
    assert DigestBody(d) == (b1 + b2) + b3 + [];
    ExtractBlock(b1 + b2, Conclusion, d.conclusion, []);
  }

  /** Reading back the exported digest file recovers every section. */
  lemma DigestRoundTrip(d: Sections<string>)
    requires forall p :: Stripped(d.Get(p)) && !Contains(d.Get(p), "\n\n")
    requires !Contains(d.intro, Label(Development)) && !Contains(d.intro, Label(Conclusion))
    requires !Contains(d.development, Label(Conclusion))
    ensures ProcessFile(DigestBody(d)) == Sections(Some(d.intro), Some(d.development), Some(d.conclusion))
  {
    assert d.intro == d.Get(Intro) && d.development == d.Get(Development) && d.conclusion == d.Get(Conclusion);
    assert ExtractSection(DigestBody(d), Intro) == Some(d.intro) by {
      NotContainsAbsent(d.intro, "\n\n");
      IntroBack(d);
    }
    assert ExtractSection(DigestBody(d), Development) == Some(d.development) by {
      NotContainsAbsent(d.development, "\n\n");
      NotContainsAbsent(d.intro, Label(Development));
      DevelopmentBack(d);
    }
    assert ExtractSection(DigestBody(d), Conclusion) == Some(d.conclusion) by {
      NotContainsAbsent(d.conclusion, "\n\n");
      NotContainsAbsent(d.intro, Label(Conclusion));
      NotContainsAbsent(d.development, Label(Conclusion));
      ConclusionBack(d);
    }
  }
}

=== FILE: image_generator.dfy ===
/** `image_generator.py`: the translation fallback and the image step. The
    translator, the CLIP tokenizer and the diffusion pipeline are parameters;
    each is `None` when it failed to load. */
module ImageGenerator {
  import opened Wrappers
  import opened PyStr
  import opened PyPath
  import opened Timestamp
  import opened TokenBudget
  import opened Naming

  /** The fixed preamble every image prompt starts with. */
  const BasePrompt := "A happy watercolor illustration of a children's fairy tale"

  /** A loaded translator: the model run on one text, `None` when it raised. */
  type Translator = string -> Option<string>

  /** A loaded diffusion pipeline: whether `pipe(prompt)` produced an image
      that was saved without raising. */
  type Pipe = string -> bool

  /** `translate_text`: the translation, or the input itself when the
      model is missing or the call raised. */
  function TranslateText(text: string, translator: Option<Translator>): (r: string)
    ensures translator.None? ==> r == text
    ensures translator.Some? && translator.value(text).None? ==> r == text
    ensures translator.Some? && translator.value(text).Some? ==> r == translator.value(text).value
    ensures r == text || (translator.Some? && translator.value(text) == Some(r))
  {
    match translator
    case None => text
    case Some(translate) =>
      match translate(text)
      case Some(english) => english
      case None => text
  }

  /** The prompt given to the pipeline: the preamble immediately followed
      (no separator) by the caption, cut to the token budget. */
  function ImagePrompt<Tok>(clip: Tokenizer<Tok>, caption: string): (r: string)
    ensures StartsWith(r, BasePrompt)
    ensures |clip.tokenize(caption)| <= Budget(clip, BasePrompt) ==> r == BasePrompt + caption
    ensures 0 <= Budget(clip, BasePrompt) < |clip.tokenize(caption)| ==>
      r == BasePrompt + clip.detokenize(clip.tokenize(caption)[..Budget(clip, BasePrompt)])
  {
    BasePrompt + FitCaption(clip, BasePrompt, caption)
  }

  /** `{title}_{safe model}_{stamp}.png`. */
  function ImageFilename(title: string, modelName: string, t: DateTime): (r: string)
    requires Valid(t)
    ensures |r| == |title| + |modelName| + 20
    ensures StartsWith(r, title + "_") && EndsWith(r, ".png")
    ensures r[|title| + 1..|title| + 1 + |modelName|] == SanitizeModelName(modelName)
    ensures r[|title| + 1 + |modelName|] == '_'
    ensures Parse14(r[|r| - 18..|r| - 4]) == Some(t)
  {
    ArtifactName(title, modelName, t, ".png")
  }

  /** The URL stored for an image: `images/` and the file name, with every
      backslash turned into a slash. */
  function ImageUrl(filename: string): (r: string)
    ensures '\\' !in r
    ensures |r| >= |filename|
    ensures !StartsWith(filename, "/") ==> r == ReplaceChar("images/" + filename, '\\', '/')
  {
    ReplaceChar(PathJoin("images", filename), '\\', '/')
  }

  /** Where the image file is written. */
  function ImagePath(filename: string): string {
    PathJoin(PathJoin("static", "images"), filename)
  }

  /** The outcome of `generate_image`: `NoImage` where it returns `None`
      (and writes nothing), otherwise the file written and its URL. */
  datatype ImageResult = NoImage | Saved(path: string, url: string) {

    /** `generate_image(...) or ""`. */
    function UrlOrEmpty(): string {
      match this
      case NoImage => ""
      case Saved(_, url) => url
    }
  }

  /** `generate_image`. `clock` is the UTC time read after the pipeline
      has run. */
  function GenerateImage<Tok>(caption: string, title: string, clip: Option<Tokenizer<Tok>>,
                              pipe: Option<Pipe>, modelName: string, clock: DateTime): (r: ImageResult)
    requires Valid(clock)
    ensures r.Saved? <==>
      caption != "" && clip.Some? && pipe.Some? && pipe.value(ImagePrompt(clip.value, caption))
    ensures r.Saved? ==>
      && r.url == ImageUrl(ImageFilename(title, modelName, clock))
      && r.path == ImagePath(ImageFilename(title, modelName, clock))
    ensures r.UrlOrEmpty() == "" <==> r.NoImage?
  {
    if caption == "" then NoImage
    else if clip.None? then NoImage
    else
      var prompt := ImagePrompt(clip.value, caption);
      if pipe.None? then NoImage
      else if !pipe.value(prompt) then NoImage
      else
        var filename := ImageFilename(title, modelName, clock);
        Saved(ImagePath(filename), ImageUrl(filename))
  }
}

=== FILE: naming.dfy ===
/** Artifact names: `{base}_{sanitised model id}_{UTC stamp}{extension}`,
    shared by the image files and the exported digest files. */
module Naming {
  import opened Wrappers
  import opened PyStr
  import opened Timestamp

  /** `model_name.replace('/', '_').replace('-', '_')`. */
  function SanitizeModelName(m: string): (r: string)
    ensures |r| == |m|
    ensures forall i :: 0 <= i < |m| ==> r[i] == (if m[i] == '/' || m[i] == '-' then '_' else m[i])
    ensures '/' !in r && '-' !in r
    ensures '/' !in m && '-' !in m ==> r == m
  {
    ReplaceChar(ReplaceChar(m, '/', '_'), '-', '_')
  }

  /** Sanitising twice is sanitising once. */
  lemma SanitizeIdempotent(m: string)
    ensures SanitizeModelName(SanitizeModelName(m)) == SanitizeModelName(m)
  {
  }

  /** The name of one artifact. The stamp sits just before the extension,
      so the time can be read back from the name. */
  function ArtifactName(base: string, modelId: string, t: DateTime, ext: string): (r: string)
    requires Valid(t)
    ensures |r| == |base| + |modelId| + 16 + |ext|
    ensures StartsWith(r, base + "_")
    ensures r[|base| + 1..|base| + 1 + |modelId|] == SanitizeModelName(modelId)
    ensures r[|base| + 1 + |modelId|] == '_'
    ensures EndsWith(r, ext)
    ensures Parse14(r[|r| - |ext| - 14..|r| - |ext|]) == Some(t)
  {
    var r := base + "_" + SanitizeModelName(modelId) + "_" + Format14(t) + ext;
    assert r[|r| - |ext| - 14..|r| - |ext|] == Format14(t);
    assert r[..|base| + 1] == base + "_";
    assert r[|base| + 1..|base| + 1 + |modelId|] == SanitizeModelName(modelId);
    ParseFormat(t);
    r
  }

  /** Names that differ only in the time of day, to the second, differ. The
      converse is the accepted limitation: two artifacts named in the same
      second for the same base and model collide. */
  lemma ArtifactNameInjective(base: string, modelId: string, t1: DateTime, t2: DateTime, ext: string)
    requires Valid(t1) && Valid(t2)
    requires ArtifactName(base, modelId, t1, ext) == ArtifactName(base, modelId, t2, ext)
    ensures t1 == t2
  {
  }
}

=== FILE: performance.dfy ===
/** `performance.py`: pairs every generated summary with its closest GPT
    and cosine reference summaries by file name and assembles one score
    record per reference. The folder listings and file contents are inputs;
    the similarity ratio and the scorers are parameters. */
module Performance {
  import opened Wrappers
  import opened PyStr
  import opened PyPath

  /** `get_close_matches`' cut-off as the script sets it. */
  const Cutoff: real := 0.4

  /** difflib's `SequenceMatcher(None, candidate, word).ratio()`. */
  type Ratio = (string, string) -> real

  /** Precision, recall and F1 of one metric. */
  datatype Triple = Triple(precision: real, recall: real, f1: real)

  const Zero := Triple(0.0, 0.0, 0.0)

  /** ROUGE-1, ROUGE-2 and ROUGE-L, as `calculate_rouge_scores` returns them. */
  datatype RougeScores = RougeScores(rouge1: Triple, rouge2: Triple, rougeL: Triple)

  /** `Reference` column of a record. */
  datatype Reference = GPT | Cosine

  /** One row of the results table. */
  datatype Record = Record(fileName: string, reference: Reference, rouge: RougeScores, bert: Triple)

  /** A folder: its path, `os.listdir` of it, and the text `open(...).read()`
      gives for each path, `None` when opening or reading raised. */
  datatype Folder = Folder(path: string, listing: seq<string>, contents: string -> Option<string>)

  /** The scorers: ROUGE and BERTScore, each `None` when the library
      raised. */
  datatype Scorers = Scorers(rouge: (string, string) -> Option<RougeScores>, bert: (string, string) -> Option<Triple>)

  /** The text of the file `name` in `folder`. */
  function Read(folder: Folder, name: string): Option<string> {
    folder.contents(PathJoin(folder.path, name))
  }

  /** `calculate_bertscore`: the scores, or all zero when scoring raised. */
  function BertScore(s: Scorers, summary: string, reference: string): (r: Triple)
    ensures s.bert(summary, reference).None? ==> r == Zero
    ensures s.bert(summary, reference).Some? ==> r == s.bert(summary, reference).value
  {
    match s.bert(summary, reference)
    case Some(t) => t
    case None => Zero
  }

  /** Python's `<` on strings: code point by code point, a proper prefix
      first. */
  predicate StrLess(a: string, b: string) {
    if a == [] then b != []
    else if b == [] then false
    else if a[0] != b[0] then a[0] < b[0]
    else StrLess(a[1..], b[1..])
  }

  /** The `(score, name)` order `get_close_matches` ranks candidates by. */
  predicate Outranks(word: string, ratio: Ratio, a: string, b: string) {
    ratio(a, word) > ratio(b, word) || (ratio(a, word) == ratio(b, word) && StrLess(b, a))
  }

  /** `find_closest_match` on one listing: the best candidate whose ratio
      reaches the cut-off, or `None` when none does. Among equal ratios
      difflib keeps the greatest name. */
  function FindClosestMatch(word: string, files: seq<string>, ratio: Ratio): (r: Option<string>)
    ensures r.None? <==> forall i :: 0 <= i < |files| ==> ratio(files[i], word) < Cutoff
    ensures r.Some? ==> r.value in files && ratio(r.value, word) >= Cutoff
    ensures r.Some? ==> forall i :: 0 <= i < |files| ==> ratio(files[i], word) <= ratio(r.value, word)
  {
    if files == [] then None
    else
      var rest := FindClosestMatch(word, files[1..], ratio);
      assert forall i :: 1 <= i < |files| ==> files[i] == files[1..][i - 1];
      var f := files[0];
      if ratio(f, word) < Cutoff then rest
      else if rest.None? || Outranks(word, ratio, f, rest.value) then Some(f)
      else rest
  }

  /** `if not match` — no match, or the empty name. */
  predicate Usable(m: Option<string>) {
    m.Some? && m.value != ""
  }

  /** `[f for f in os.listdir(model_folder) if f.endswith(".txt")]`. */
  function TextFiles(listing: seq<string>): (r: seq<string>)
    ensures forall f :: f in r <==> f in listing && EndsWith(f, ".txt")
    ensures |r| <= |listing|
  {
    if listing == [] then []
    else
      var rest := TextFiles(listing[1..]);
      assert listing == [listing[0]] + listing[1..];
      if EndsWith(listing[0], ".txt") then [listing[0]] + rest else rest
  }

  /** Both references have a usable match for `modelFile`. */
  predicate BothMatched(modelFile: string, gpt: Folder, cos: Folder, ratio: Ratio) {
    Usable(FindClosestMatch(modelFile, gpt.listing, ratio)) && Usable(FindClosestMatch(modelFile, cos.listing, ratio))
  }

  /** The GPT reference file matched to `modelFile`. */
  function GptMatch(modelFile: string, gpt: Folder, cos: Folder, ratio: Ratio): string
    requires BothMatched(modelFile, gpt, cos, ratio)
  {
    FindClosestMatch(modelFile, gpt.listing, ratio).value
  }

  /** The cosine reference file matched to `modelFile`. */
  function CosMatch(modelFile: string, gpt: Folder, cos: Folder, ratio: Ratio): string
    requires BothMatched(modelFile, gpt, cos, ratio)
  {
    FindClosestMatch(modelFile, cos.listing, ratio).value
  }

  /** A fully matched file stops the whole run: reading one of its three
      files, or ROUGE-scoring it against either reference, raised, and
      `process_files` catches neither. */
  predicate Aborts(modelFile: string, model: Folder, gpt: Folder, cos: Folder, ratio: Ratio, s: Scorers) {
    && BothMatched(modelFile, gpt, cos, ratio)
    && var summary := Read(model, modelFile);
      var gptSummary := Read(gpt, GptMatch(modelFile, gpt, cos, ratio));
      var cosSummary := Read(cos, CosMatch(modelFile, gpt, cos, ratio));
      || summary.None? || gptSummary.None? || cosSummary.None?
      || s.rouge(summary.value, gptSummary.value).None?
      || s.rouge(summary.value, cosSummary.value).None?
  }

  /** The records one generated file contributes: none when either
      reference has no usable match; `None` when the file's reads or ROUGE
      scoring raised; otherwise the GPT record and then the cosine record,
      each scored against its reference's text. */
  function FileRecords(modelFile: string, model: Folder, gpt: Folder, cos: Folder,
                       ratio: Ratio, s: Scorers): (r: Option<seq<Record>>)
    ensures r.None? <==> Aborts(modelFile, model, gpt, cos, ratio, s)
    ensures r.Some? ==> (r.value == [] <==> !BothMatched(modelFile, gpt, cos, ratio))
    ensures r.Some? && r.value != [] ==>
      && |r.value| == 2 && r.value[0].reference == GPT && r.value[1].reference == Cosine
      && r.value[0].fileName == modelFile && r.value[1].fileName == modelFile
    ensures r.Some? && r.value != [] ==>
      var summary := Read(model, modelFile).value;
      var gptSummary := Read(gpt, GptMatch(modelFile, gpt, cos, ratio)).value;
      var cosSummary := Read(cos, CosMatch(modelFile, gpt, cos, ratio)).value;
      && s.rouge(summary, gptSummary) == Some(r.value[0].rouge)
      && r.value[0].bert == BertScore(s, summary, gptSummary)
      && s.rouge(summary, cosSummary) == Some(r.value[1].rouge)
      && r.value[1].bert == BertScore(s, summary, cosSummary)
  {
    if !BothMatched(modelFile, gpt, cos, ratio) then Some([])
    else
      match (Read(model, modelFile), Read(gpt, GptMatch(modelFile, gpt, cos, ratio)),
             Read(cos, CosMatch(modelFile, gpt, cos, ratio)))
      case (Some(summary), Some(gptSummary), Some(cosSummary)) =>
        (match (s.rouge(summary, gptSummary), s.rouge(summary, cosSummary))
         case (Some(gptRouge), Some(cosRouge)) =>
           Some([Record(modelFile, GPT, gptRouge, BertScore(s, summary, gptSummary)),
                 Record(modelFile, Cosine, cosRouge, BertScore(s, summary, cosSummary))])
         case _ => None)
      case _ => None
  }

  /** The records of one file, as a function of the file name (none for a
      file whose run aborts). */
  function RecordsOf(model: Folder, gpt: Folder, cos: Folder, ratio: Ratio, s: Scorers): (recs: string -> seq<Record>)
    ensures forall f :: FileRecords(f, model, gpt, cos, ratio, s).Some? ==>
      recs(f) == FileRecords(f, model, gpt, cos, ratio, s).value
  {
    f => match FileRecords(f, model, gpt, cos, ratio, s) case Some(v) => v case None => []
  }

  /** Which files stop the run, as a function of the file name. */
  function AbortsOf(model: Folder, gpt: Folder, cos: Folder, ratio: Ratio, s: Scorers): (aborts: string -> bool)
    ensures forall f :: aborts(f) == Aborts(f, model, gpt, cos, ratio, s)
  {
    f => Aborts(f, model, gpt, cos, ratio, s)
  }

  /** Which files get records, as a function of the file name. */
  function MatchedOf(gpt: Folder, cos: Folder, ratio: Ratio): (keep: string -> bool)
    ensures forall f :: keep(f) == BothMatched(f, gpt, cos, ratio)
  {
    f => BothMatched(f, gpt, cos, ratio)
  }

  /** The files `keep` accepts, in order. */
  function Keep(files: seq<string>, keep: string -> bool): (r: seq<string>)
    ensures forall f :: f in r <==> f in files && keep(f)
    ensures |r| <= |files|
  {
    if files == [] then []
    else
      var rest := Keep(files[1..], keep);
      assert files == [files[0]] + files[1..];
      if keep(files[0]) then [files[0]] + rest else rest
  }

  /** Each file's records, one file after the other. */
  function Flatten(files: seq<string>, recs: string -> seq<Record>): seq<Record> {
    if files == [] then [] else recs(files[0]) + Flatten(files[1..], recs)
  }

  /** `Flatten` of a longer prefix. */
  lemma FlattenSnoc(files: seq<string>, f: string, recs: string -> seq<Record>)
    ensures Flatten(files + [f], recs) == Flatten(files, recs) + recs(f)
  {
    if files != [] {
      assert (files + [f])[1..] == files[1..] + [f];
      FlattenSnoc(files[1..], f, recs);
    }
  }

  /** The loop's step: one more file of the listing flattened. */
  lemma FlattenPrefix(files: seq<string>, i: nat, recs: string -> seq<Record>)
    requires i < |files|
    ensures Flatten(files[..i + 1], recs) == Flatten(files[..i], recs) + recs(files[i])
  {
    assert files[..i + 1] == files[..i] + [files[i]];
    FlattenSnoc(files[..i], files[i], recs);
  }

  /** `r` holds two records per name of `m`, in order: those `recs` gives
      for that name. */
  predicate Paired(r: seq<Record>, m: seq<string>, recs: string -> seq<Record>) {
    && |r| == 2 * |m|
    && forall k :: 0 <= k < |m| ==>
      |recs(m[k])| == 2 && r[2 * k] == recs(m[k])[0] && r[2 * k + 1] == recs(m[k])[1]
  }

  /** One more name in front, with its two records in front. */
  lemma ConsPair(f: string, rest: seq<Record>, m: seq<string>, recs: string -> seq<Record>)
    requires Paired(rest, m, recs) && |recs(f)| == 2
    ensures Paired(recs(f) + rest, [f] + m, recs)
  {
    var r := recs(f) + rest;
    var m' := [f] + m;
    forall k | 0 <= k < |m'|
      ensures |recs(m'[k])| == 2 && r[2 * k] == recs(m'[k])[0] && r[2 * k + 1] == recs(m'[k])[1]
    {
      if k > 0 {
        assert m'[k] == m[k - 1];
        assert r[2 * k] == rest[2 * (k - 1)] && r[2 * k + 1] == rest[2 * (k - 1) + 1];
      }
    }
  }

  /** When the kept files yield two records each and the others none, the
      flattened records come in pairs, one pair per kept file, in order. */
  lemma {:induction false} FlattenPairs(files: seq<string>, recs: string -> seq<Record>, keep: string -> bool)
    requires forall f :: f in files && keep(f) ==> |recs(f)| == 2
    requires forall f :: f in files && !keep(f) ==> recs(f) == []
    ensures Paired(Flatten(files, recs), Keep(files, keep), recs)
  {
    if files != [] {
      assert forall f :: f in files[1..] ==> f in files;
      FlattenPairs(files[1..], recs, keep);
      if keep(files[0]) {
        ConsPair(files[0], Flatten(files[1..], recs), Keep(files[1..], keep), recs);
      } else {
        assert recs(files[0]) + Flatten(files[1..], recs) == Flatten(files[1..], recs);
      }
    }
  }

  /** None of the first `n` files stops the run. */
  ghost predicate NoneAbort(files: seq<string>, n: nat, aborts: string -> bool)
    requires n <= |files|
  {
    forall j :: 0 <= j < n ==> !aborts(files[j])
  }

  /** One more file that does not stop the run. */
  lemma NoneAbortStep(files: seq<string>, i: nat, aborts: string -> bool)
    requires i < |files| && NoneAbort(files, i, aborts) && !aborts(files[i])
    ensures NoneAbort(files, i + 1, aborts)
  {
  }

  /** The loop's step: a file whose run does not abort adds its records. */
  lemma RecordsStep(files: seq<string>, i: nat, model: Folder, gpt: Folder, cos: Folder, ratio: Ratio, s: Scorers)
    requires i < |files| && FileRecords(files[i], model, gpt, cos, ratio, s).Some?
    ensures var recs := RecordsOf(model, gpt, cos, ratio, s);
      Flatten(files[..i + 1], recs) == Flatten(files[..i], recs) + FileRecords(files[i], model, gpt, cos, ratio, s).value
  {
    FlattenPrefix(files, i, RecordsOf(model, gpt, cos, ratio, s));
  }

  /** `r` is the table for `files`: two rows per fully matched file, in
      order, the GPT row then the Cosine row, both named after the file and
      both as `FileRecords` scores them. */
  ghost predicate Tabulated(r: seq<Record>, files: seq<string>, model: Folder, gpt: Folder, cos: Folder,
                            ratio: Ratio, s: Scorers) {
    var m := Keep(files, MatchedOf(gpt, cos, ratio));
    && |r| == 2 * |m|
    && forall k :: 0 <= k < |m| ==>
      && FileRecords(m[k], model, gpt, cos, ratio, s).Some?
      && |FileRecords(m[k], model, gpt, cos, ratio, s).value| == 2
      && r[2 * k] == FileRecords(m[k], model, gpt, cos, ratio, s).value[0]
      && r[2 * k + 1] == FileRecords(m[k], model, gpt, cos, ratio, s).value[1]
      && r[2 * k].fileName == m[k] && r[2 * k].reference == GPT
      && r[2 * k + 1].fileName == m[k] && r[2 * k + 1].reference == Cosine
  }

  /** When no file of a list aborts, its flattened records pair up with its
      fully matched files: GPT first, then Cosine, both named after the
      file. */
  lemma MatchedRecords(files: seq<string>, model: Folder, gpt: Folder, cos: Folder, ratio: Ratio, s: Scorers)
    requires forall f :: f in files ==> !Aborts(f, model, gpt, cos, ratio, s)
    ensures Tabulated(Flatten(files, RecordsOf(model, gpt, cos, ratio, s)), files, model, gpt, cos, ratio, s)
  {
    var recs := RecordsOf(model, gpt, cos, ratio, s);
    var keep := MatchedOf(gpt, cos, ratio);
    var m := Keep(files, keep);
    forall f | f in files
      ensures keep(f) ==> |recs(f)| == 2
      ensures !keep(f) ==> recs(f) == []
    {
      assert FileRecords(f, model, gpt, cos, ratio, s).Some?;
    }
    FlattenPairs(files, recs, keep);
    forall k | 0 <= k < |m|
      ensures FileRecords(m[k], model, gpt, cos, ratio, s).Some?
      ensures |FileRecords(m[k], model, gpt, cos, ratio, s).value| == 2
    {
      assert m[k] in m;
    }
  }

  /** `process_files` without the progress bar and the spreadsheet: the
      records of every `.txt` file of the model folder in listing order,
      two for each file with both matches (GPT first) and none for the
      others. */
  method ProcessFiles(model: Folder, gpt: Folder, cos: Folder, ratio: Ratio, s: Scorers)
    returns (records: Option<seq<Record>>)
    ensures records.None? <==> exists f :: f in TextFiles(model.listing) && Aborts(f, model, gpt, cos, ratio, s)
    ensures records.Some? ==> records.value == Flatten(TextFiles(model.listing), RecordsOf(model, gpt, cos, ratio, s))
    ensures records.Some? ==> Tabulated(records.value, TextFiles(model.listing), model, gpt, cos, ratio, s)
  {
    var files := TextFiles(model.listing);
    records := ScoreFiles(files, model, gpt, cos, ratio, s);
    if records.Some? {
      MatchedRecords(files, model, gpt, cos, ratio, s);
    }
  }

  /** The loop of `process_files` over `files`: each file's records in
      turn, stopping with `None` at the first file whose run aborts. */
  method ScoreFiles(files: seq<string>, model: Folder, gpt: Folder, cos: Folder, ratio: Ratio, s: Scorers)
    returns (records: Option<seq<Record>>)
    ensures records.None? <==> exists f :: f in files && Aborts(f, model, gpt, cos, ratio, s)
    ensures records.Some? ==> records.value == Flatten(files, RecordsOf(model, gpt, cos, ratio, s))
  {
    var recs := RecordsOf(model, gpt, cos, ratio, s);
    var aborts := AbortsOf(model, gpt, cos, ratio, s);
    var acc := [];
    var i := 0;
    while i < |files|
      invariant 0 <= i <= |files|
      invariant NoneAbort(files, i, aborts)
      invariant acc == Flatten(files[..i], recs)
    {
      var out := FileRecords(files[i], model, gpt, cos, ratio, s);
      if out.None? {
        assert files[i] in files;
        return None;
      }
      NoneAbortStep(files, i, aborts);
      RecordsStep(files, i, model, gpt, cos, ratio, s);
      acc := acc + out.value;
      i := i + 1;
    }
    assert files[..i] == files;
    assert forall f :: f in files ==> !aborts(f);
    records := Some(acc);
  }
}

=== FILE: pypath.dfy ===
/** The POSIX behaviour of the `os.path` functions the application calls. */
module PyPath {
  import opened Wrappers
  import opened PyStr

  /** `os.path.join(a, b)`: an absolute `b` replaces `a`; otherwise one `/`
      separates them unless `a` is empty or already ends in `/`. */
  function PathJoin(a: string, b: string): (r: string)
    ensures !StartsWith(b, "/") && a != "" && !EndsWith(a, "/") ==> r == a + "/" + b
    ensures StartsWith(b, "/") ==> r == b
    ensures EndsWith(r, b)
  {
    if StartsWith(b, "/") then b
    else if a == "" || EndsWith(a, "/") then a + b
    else a + "/" + b
  }

  /** `os.path.basename(p)`: everything after the last `/`. */
  function Basename(p: string): (r: string)
    ensures '/' !in r
    ensures EndsWith(p, r)
    ensures '/' !in p ==> r == p
  {
    match RFind(p, '/')
    case Some(i) => p[i + 1..]
    case None => p
  }

  /** Some character of `p[lo..hi]` is not a dot. */
  predicate HasNonDot(p: string, lo: nat, hi: nat)
    requires lo <= hi <= |p|
  {
    exists k :: lo <= k < hi && p[k] != '.'
  }

  /** `os.path.splitext(p)`: the extension is the text from the last `.` of
      the final path component, unless that component is nothing but dots
      up to that `.` (so `.bashrc` has no extension). */
  function SplitExt(p: string): (r: (string, string))
    ensures r.0 + r.1 == p
    ensures r.1 == "" || (r.1[0] == '.' && '.' !in r.1[1..] && '/' !in r.1)
  {
    var start := match RFind(p, '/') case Some(s) => s + 1 case None => 0;
    match RFind(p, '.')
    case Some(d) =>
      if start <= d && HasNonDot(p, start, d) then
        assert '/' !in p[d..] by {
          assert forall k :: d <= k < |p| ==> p[k] != '/';
        }
        (p[..d], p[d..])
      else (p, "")
    case None => (p, "")
  }

  /** A name with no `/` whose last `.` is at `d`, with something other
      than a dot before it, splits at `d`. */
  lemma SplitExtAt(p: string, d: nat)
    requires d < |p| && p[d] == '.' && '.' !in p[d + 1..]
    requires '/' !in p && HasNonDot(p, 0, d)
    ensures SplitExt(p) == (p[..d], p[d..])
  {
    RFindIsLast(p, '.', d);
    assert RFind(p, '/') == None;
  }

  /** Appending a dotted extension that holds no `.` or `/` to a name with
      no `/` and at least one character that is not a dot is undone by
      `splitext`. */
  lemma SplitExtAppended(b: string, e: string)
    requires '/' !in b && HasNonDot(b, 0, |b|)
    requires '.' !in e && '/' !in e
    ensures SplitExt(b + "." + e) == (b, "." + e)
  {
    var p := b + "." + e;
    assert p[..|b|] == b && p[|b|..] == "." + e && p[|b| + 1..] == e;
    assert '/' !in p by {
      assert '/' !in "." + e;
    }
    var k :| 0 <= k < |b| && b[k] != '.';
    assert p[k] == b[k];
    SplitExtAt(p, |b|);
  }
}

=== FILE: pystr.dfy ===
/** The handful of Python `str` operations the application relies on,
    defined over `string` (a sequence of Unicode scalar values, as Python
    counts `len`). */
module PyStr {
  import opened Wrappers

  /** Python's `str.isspace()`: exactly the characters an argument-less
      `strip()` removes. */
  predicate IsSpace(c: char) {
    || c == ' '
    || ('\t' <= c <= '\r')
    || ('\U{1C}' <= c <= '\U{1F}')
    || c == '\U{85}' || c == '\U{A0}' || c == '\U{1680}'
    || ('\U{2000}' <= c <= '\U{200A}')
    || c == '\U{2028}' || c == '\U{2029}' || c == '\U{202F}' || c == '\U{205F}' || c == '\U{3000}'
  }

  predicate AllSpace(s: string) {
    forall i :: 0 <= i < |s| ==> IsSpace(s[i])
  }

  /** Neither end is whitespace: the shape of every `strip()` result. */
  predicate Stripped(s: string) {
    s == [] || (!IsSpace(s[0]) && !IsSpace(s[|s| - 1]))
  }

  /** `s.lstrip()`: the longest suffix that does not start with whitespace. */
  function LStrip(s: string): (r: string)
    ensures |r| <= |s| && r == s[|s| - |r|..]
    ensures AllSpace(s[..|s| - |r|])
    ensures r == [] || !IsSpace(r[0])
  {
    if |s| > 0 && IsSpace(s[0]) then
      var r := LStrip(s[1..]);
      SpaceThenSuffix(s, r);
      r
    else s
  }

  /** A leading space followed by a space-only run and then `r` makes a
      space-only run of one more character before `r`. */
  lemma SpaceThenSuffix(s: string, r: string)
    requires |s| > 0 && IsSpace(s[0])
    requires |r| <= |s| - 1 && r == s[1..][|s| - 1 - |r|..]
    requires AllSpace(s[1..][..|s| - 1 - |r|])
    ensures r == s[|s| - |r|..] && AllSpace(s[..|s| - |r|])
  {
    assert s[..|s| - |r|] == [s[0]] + s[1..][..|s| - 1 - |r|];
  }

  /** `s.rstrip()`: the longest prefix that does not end with whitespace. */
  function RStrip(s: string): (r: string)
    ensures |r| <= |s| && r == s[..|r|]
    ensures AllSpace(s[|r|..])
    ensures r == [] || !IsSpace(r[|r| - 1])
  {
    if |s| > 0 && IsSpace(s[|s| - 1]) then
      var r := RStrip(s[..|s| - 1]);
      PrefixThenSpace(s, r);
      r
    else s
  }

  /** `r` followed by a space-only run and then a trailing space leaves a
      space-only run of one more character after `r`. */
  lemma PrefixThenSpace(s: string, r: string)
    requires |s| > 0 && IsSpace(s[|s| - 1])
    requires |r| <= |s| - 1 && r == s[..|s| - 1][..|r|]
    requires AllSpace(s[..|s| - 1][|r|..])
    ensures r == s[..|r|] && AllSpace(s[|r|..])
  {
    assert s[|r|..] == s[..|s| - 1][|r|..] + [s[|s| - 1]];
  }

  /** `s.strip()`: both ends' whitespace removed. */
  function Strip(s: string): (r: string)
    ensures Stripped(r)
  {
    RStripKeepsHead(LStrip(s));
    RStrip(LStrip(s))
  }

  /** `rstrip()` leaves the first character where it was. */
  lemma RStripKeepsHead(l: string)
    ensures RStrip(l) != [] ==> RStrip(l)[0] == l[0]
  {
    var r := RStrip(l);
    if r != [] {
      assert r[0] == l[..|r|][0];
    }
  }

  /** `s` is whitespace, then `strip(s)`, then whitespace; `k` is where
      the result starts. */
  lemma StripSlice(s: string) returns (k: nat)
    ensures k + |Strip(s)| <= |s|
    ensures Strip(s) == s[k..k + |Strip(s)|]
    ensures AllSpace(s[..k]) && AllSpace(s[k + |Strip(s)|..])
  {
    k := LRSlice(s, Strip(s));
  }

  /** `rstrip(lstrip(s))` sits in `s` between whitespace. */
  lemma LRSlice(s: string, r: string) returns (k: nat)
    requires r == RStrip(LStrip(s))
    ensures k + |r| <= |s| && r == s[k..k + |r|]
    ensures AllSpace(s[..k]) && AllSpace(s[k + |r|..])
  {
    var l := LStrip(s);
    k := |s| - |l|;
    Reassemble(s, k, l, r);
  }

  /** A prefix of a suffix is a middle slice; whitespace before the suffix
      and after the prefix is whitespace around that slice. */
  lemma Reassemble(s: string, k: nat, l: string, r: string)
    requires k <= |s| && l == s[k..] && AllSpace(s[..k])
    requires |r| <= |l| && r == l[..|r|] && AllSpace(l[|r|..])
    ensures k + |r| <= |s| && r == s[k..k + |r|]
    ensures AllSpace(s[..k]) && AllSpace(s[k + |r|..])
  {
    assert s[k + |r|..] == l[|r|..];
  }

  /** A string strips to nothing exactly when it is all whitespace. */
  lemma StripEmptyIffAllSpace(s: string)
    ensures Strip(s) == [] <==> AllSpace(s)
  {
    var l := LStrip(s);
    var k := |s| - |l|;
    assert l == [] ==> s[..k] == s;
    assert l != [] ==> l[0] == s[k];
    assert RStrip(l) == [] ==> l[0..] == l;
  }

  /** Stripping a string that is already stripped changes nothing. */
  lemma StripStripped(s: string)
    requires Stripped(s)
    ensures Strip(s) == s
  {
  }

  /** `strip()` is idempotent. */
  lemma StripIdempotent(s: string)
    ensures Strip(Strip(s)) == Strip(s)
  {
    StripStripped(Strip(s));
  }

  /** Leading whitespace does not reach the result of `strip()`. */
  lemma StripSkipsLeadingSpace(c: char, s: string)
    requires IsSpace(c)
    ensures Strip([c] + s) == Strip(s)
  {
    assert ([c] + s)[1..] == s;
  }

  /** Whitespace, a slice with no whitespace at either end, then
      whitespace: that slice is what `strip()` returns. */
  lemma StripUnique(s: string, k: nat, m: nat)
    requires k + m <= |s|
    requires AllSpace(s[..k]) && AllSpace(s[k + m..])
    requires m > 0 ==> !IsSpace(s[k]) && !IsSpace(s[k + m - 1])
    ensures Strip(s) == s[k..k + m]
  {
    var j, n := StripCore(s);
    CutUnique(s, Strip(s), j, n, k, m);
  }

  /** A slice found between whitespace with non-whitespace ends, where
      `s` is all whitespace exactly when it is empty, is every other slice
      found that way. */
  lemma CutUnique(s: string, t: string, j: nat, n: nat, k: nat, m: nat)
    requires n == |t| && j + n <= |s| && t == s[j..j + n]
    requires AllSpace(s[..j]) && AllSpace(s[j + n..])
    requires n > 0 ==> !IsSpace(s[j]) && !IsSpace(s[j + n - 1])
    requires n == 0 <==> AllSpace(s)
    requires k + m <= |s|
    requires AllSpace(s[..k]) && AllSpace(s[k + m..])
    requires m > 0 ==> !IsSpace(s[k]) && !IsSpace(s[k + m - 1])
    ensures t == s[k..k + m]
  {
    if m == 0 {
      SpaceAround(s, k);
      assert n == 0 && s[k..k + m] == [] == s[j..j + n];
    } else {
      assert !AllSpace(s) by { assert !IsSpace(s[k]); }
      SameCore(s, j, n, k, m);
    }
  }

  /** Where `strip(s)` sits in `s`: `n` characters from `j`, whitespace on
      both sides, non-whitespace at both of its ends, and empty exactly
      when `s` is all whitespace. */
  lemma StripCore(s: string) returns (j: nat, n: nat)
    ensures n == |Strip(s)| && j + n <= |s| && Strip(s) == s[j..j + n]
    ensures AllSpace(s[..j]) && AllSpace(s[j + n..])
    ensures n > 0 ==> !IsSpace(s[j]) && !IsSpace(s[j + n - 1])
    ensures n == 0 <==> AllSpace(s)
  {
    j := StripSlice(s);
    StripEmptyIffAllSpace(s);
    n := CoreOf(s, Strip(s), j);
  }

  /** A stripped slice lying between whitespace at `j` has its two
      non-whitespace ends in `s`. */
  lemma CoreOf(s: string, t: string, j: nat) returns (n: nat)
    requires j + |t| <= |s| && t == s[j..j + |t|] && Stripped(t)
    requires AllSpace(s[..j]) && AllSpace(s[j + |t|..])
    requires t == [] <==> AllSpace(s)
    ensures n == |t| && j + n <= |s| && t == s[j..j + n]
    ensures AllSpace(s[..j]) && AllSpace(s[j + n..])
    ensures n > 0 ==> !IsSpace(s[j]) && !IsSpace(s[j + n - 1])
    ensures n == 0 <==> AllSpace(s)
  {
    n := |t|;
    if n > 0 {
      assert t[0] == s[j] && t[n - 1] == s[j + n - 1];
    }
  }

  /** Two ways of cutting `s` into whitespace, a slice with non-whitespace
      ends, and whitespace cut at the same places. */
  lemma SameCore(s: string, j: nat, n: nat, k: nat, m: nat)
    requires 0 < n && j + n <= |s| && 0 < m && k + m <= |s|
    requires AllSpace(s[..j]) && AllSpace(s[j + n..]) && !IsSpace(s[j]) && !IsSpace(s[j + n - 1])
    requires AllSpace(s[..k]) && AllSpace(s[k + m..]) && !IsSpace(s[k]) && !IsSpace(s[k + m - 1])
    ensures j == k && n == m
  {
    SpaceBefore(s, j, k);
    SpaceBefore(s, k, j);
    SpaceAfter(s, j + n, k + m - 1);
    SpaceAfter(s, k + m, j + n - 1);
  }

  /** Two whitespace runs that meet cover the whole string. */
  lemma SpaceAround(s: string, k: nat)
    requires k <= |s| && AllSpace(s[..k]) && AllSpace(s[k..])
    ensures AllSpace(s)
  {
    forall i | 0 <= i < |s| ensures IsSpace(s[i]) {
      if i < k {
        assert s[..k][i] == s[i];
      } else {
        assert s[k..][i - k] == s[i];
      }
    }
  }

  /** A non-whitespace character lies at or after the end of a leading
      whitespace run. */
  lemma SpaceBefore(s: string, j: nat, k: nat)
    requires j <= |s| && k < |s| && AllSpace(s[..j]) && !IsSpace(s[k])
    ensures j <= k
  {
    assert forall x :: 0 <= x < j ==> s[..j][x] == s[x];
  }

  /** A non-whitespace character lies before the start of a trailing
      whitespace run. */
  lemma SpaceAfter(s: string, e: nat, k: nat)
    requires e <= |s| && k < |s| && AllSpace(s[e..]) && !IsSpace(s[k])
    ensures k < e
  {
    assert forall x :: e <= x < |s| ==> s[e..][x - e] == s[x];
  }

  /** Whitespace in front of a string does not reach its `strip()`. */
  lemma {:induction false} StripSpacePrefix(a: string, b: string)
    requires AllSpace(a)
    ensures Strip(a + b) == Strip(b)
  {
    if a == [] {
      assert a + b == b;
    } else {
      assert a + b == [a[0]] + (a[1..] + b);
      StripSkipsLeadingSpace(a[0], a[1..] + b);
      assert AllSpace(a[1..]) by {
        forall i | 0 <= i < |a| - 1 ensures IsSpace(a[1..][i]) {
          assert a[1..][i] == a[i + 1];
        }
      }
      StripSpacePrefix(a[1..], b);
    }
  }

  /** Whitespace behind a string does not reach its `strip()`. */
  lemma StripSpaceSuffix(a: string, b: string)
    requires AllSpace(b)
    ensures Strip(a + b) == Strip(a)
  {
    var j, n := StripCore(a);
    CoreExtends(a, b, j, n);
    StripUnique(a + b, j, n);
  }

  /** Appending whitespace keeps a cut into whitespace, a slice with
      non-whitespace ends, and whitespace. */
  lemma CoreExtends(a: string, b: string, j: nat, n: nat)
    requires j + n <= |a| && AllSpace(a[..j]) && AllSpace(a[j + n..]) && AllSpace(b)
    requires n > 0 ==> !IsSpace(a[j]) && !IsSpace(a[j + n - 1])
    ensures (a + b)[j..j + n] == a[j..j + n]
    ensures AllSpace((a + b)[..j]) && AllSpace((a + b)[j + n..])
    ensures n > 0 ==> !IsSpace((a + b)[j]) && !IsSpace((a + b)[j + n - 1])
  {
    var s := a + b;
    assert s[..j] == a[..j];
    assert s[j + n..] == a[j + n..] + b;
  }

  /** Cutting off leading whitespace before a slice leaves its `strip()`
      unchanged. */
  lemma StripFromSpace(s: string, k: nat, e: nat)
    requires k <= e <= |s| && AllSpace(s[..k])
    ensures Strip(s[k..e]) == Strip(s[..e])
  {
    StripSpacePrefix(s[..k], s[k..e]);
    SliceJoin(s, k, e);
  }

  /** A prefix and the slice right after it make a longer prefix. */
  lemma SliceJoin(s: string, i: nat, e: nat)
    requires i <= e <= |s|
    ensures s[..i] + s[i..e] == s[..e]
  {
  }

  /** A non-whitespace character occurs in `strip(s)` exactly when it occurs in `s`. */
  lemma StripKeepsNonSpace(s: string, c: char)
    requires !IsSpace(c)
    ensures c in Strip(s) <==> c in s
  {
    var k := StripSlice(s);
    BetweenSpaces(s, k, |Strip(s)|, c);
  }

  /** Between two runs of whitespace lies every non-whitespace character. */
  lemma BetweenSpaces(s: string, k: nat, m: nat, c: char)
    requires k + m <= |s| && !IsSpace(c)
    requires AllSpace(s[..k]) && AllSpace(s[k + m..])
    ensures c in s[k..k + m] <==> c in s
  {
    if c in s {
      var i :| 0 <= i < |s| && s[i] == c;
      if i < k {
        assert false;
      } else if k + m <= i {
        assert false;
      } else {
        assert s[k..k + m][i - k] == c;
      }
    }
  }

  /** `pat` occurs in `s` starting at index `k`. */
  predicate OccursAt(s: string, pat: string, k: int) {
    0 <= k && k + |pat| <= |s| && s[k..k + |pat|] == pat
  }

  /** `s.find(pat, from)`: the first index at or after `from` where `pat`
      starts, or `None` where Python returns -1. */
  function Find(s: string, pat: string, from: nat): (r: Option<nat>)
    ensures r.Some? ==> from <= r.value && OccursAt(s, pat, r.value)
    ensures r.Some? ==> forall k :: from <= k < r.value ==> !OccursAt(s, pat, k)
    ensures r.None? ==> forall k :: from <= k ==> !OccursAt(s, pat, k)
    decreases |s| - from
  {
    if from + |pat| > |s| then None
    else if s[from..from + |pat|] == pat then Some(from)
    else Find(s, pat, from + 1)
  }

  /** Python's `pat in s`. */
  predicate Contains(s: string, pat: string) {
    Find(s, pat, 0).Some?
  }

  /** `pat in s` holds exactly when `pat` occurs somewhere in `s`. */
  lemma ContainsIffOccurs(s: string, pat: string)
    ensures Contains(s, pat) <==> exists k :: OccursAt(s, pat, k)
  {
  }

  /** The first occurrence at or after `from` is what `find` returns. */
  lemma FindAt(s: string, pat: string, from: nat, n: nat)
    requires from <= n && OccursAt(s, pat, n)
    requires forall k :: from <= k < n ==> !OccursAt(s, pat, k)
    ensures Find(s, pat, from) == Some(n)
  {
  }

  /** `s.rfind(c)`: the last index holding `c`. */
  function RFind(s: string, c: char): (r: Option<nat>)
    ensures r.Some? ==> r.value < |s| && s[r.value] == c && c !in s[r.value + 1..]
    ensures r.None? ==> c !in s
  {
    if s == [] then None
    else if s[|s| - 1] == c then Some(|s| - 1)
    else
      var r := RFind(s[..|s| - 1], c);
      assert s == s[..|s| - 1] + [s[|s| - 1]];
      if r.Some? then
        assert s[r.value + 1..] == s[..|s| - 1][r.value + 1..] + [s[|s| - 1]];
        r
      else r
  }

  /** Every index holding `c` with no `c` after it is the one `rfind`
      returns. */
  lemma LastIsRFind(p: string, c: char)
    ensures forall j :: 0 <= j < |p| && p[j] == c && c !in p[j + 1..] ==> RFind(p, c) == Some(j)
  {
    forall j | 0 <= j < |p| && p[j] == c && c !in p[j + 1..] ensures RFind(p, c) == Some(j) {
      RFindIsLast(p, c, j);
    }
  }

  /** The last occurrence of `c` is the unique index holding `c` with no
      `c` after it. */
  lemma RFindIsLast(p: string, c: char, d: nat)
    requires d < |p| && p[d] == c && c !in p[d + 1..]
    ensures RFind(p, c) == Some(d)
  {
    var r := RFind(p, c);
    assert r.Some?;
    assert forall k :: r.value < k < |p| ==> p[k] != c by {
      forall k | r.value < k < |p| ensures p[k] != c {
        assert p[r.value + 1..][k - r.value - 1] == p[k];
      }
    }
    assert forall k :: d < k < |p| ==> p[k] != c by {
      forall k | d < k < |p| ensures p[k] != c {
        assert p[d + 1..][k - d - 1] == p[k];
      }
    }
  }

  /** The first index holding `c`, as `str.split(c, 1)` uses it. */
  function FirstIndex(s: string, c: char): (r: Option<nat>)
    ensures r.Some? ==> r.value < |s| && s[r.value] == c && c !in s[..r.value]
    ensures r.None? ==> c !in s
  {
    if s == [] then None
    else if s[0] == c then Some(0)
    else
      var r := FirstIndex(s[1..], c);
      if r.Some? then
        assert s[..r.value + 1] == [s[0]] + s[1..][..r.value];
        Some(r.value + 1)
      else r
  }

  /** `s.split(c, 1)` on a string that contains `c`: the text before the
      first `c` and everything after it. */
  function SplitOnce(s: string, c: char): (r: (string, string))
    requires c in s
    ensures s == r.0 + [c] + r.1
    ensures c !in r.0
  {
    var i := FirstIndex(s, c).value;
    assert s == s[..i] + [c] + s[i + 1..];
    (s[..i], s[i + 1..])
  }

  /** The first index holding `c` is the index holding `c` with no `c`
      before it. */
  lemma {:induction false} FirstIndexIs(s: string, c: char, k: nat)
    requires k < |s| && s[k] == c && c !in s[..k]
    ensures FirstIndex(s, c) == Some(k)
  {
    if k > 0 {
      assert s[0] == s[..k][0];
      assert s[1..][..k - 1] == s[..k][1..];
      FirstIndexIs(s[1..], c, k - 1);
    }
  }

  /** Splitting at the first `c` undoes gluing two texts with `c` when
      the first text holds no `c`. */
  lemma SplitOnceOf(a: string, c: char, b: string)
    requires c !in a
    ensures c in a + [c] + b
    ensures SplitOnce(a + [c] + b, c) == (a, b)
  {
    var s := a + [c] + b;
    assert s[..|a|] == a;
    FirstIndexIs(s, c, |a|);
    assert s[|a| + 1..] == b;
  }

  /** `s.startswith(p)`. */
  predicate StartsWith(s: string, p: string) {
    |p| <= |s| && s[..|p|] == p
  }

  /** `s.endswith(p)`. */
  predicate EndsWith(s: string, p: string) {
    |p| <= |s| && s[|s| - |p|..] == p
  }

  /** `s.replace(a, b)` for single characters `a` and `b`. */
  function ReplaceChar(s: string, a: char, b: char): (r: string)
    ensures |r| == |s|
    ensures forall i :: 0 <= i < |s| ==> r[i] == (if s[i] == a then b else s[i])
  {
    seq(|s|, i requires 0 <= i < |s| => if s[i] == a then b else s[i])
  }

  /** Upper- to lower-case for the ASCII letters, as `str.lower()` maps them. */
  function LowerChar(c: char): char {
    if 'A' <= c <= 'Z' then (c as int + 32) as char else c
  }

  /** `s.lower()`, restricted to the ASCII case mapping. */
  function Lower(s: string): (r: string)
    ensures |r| == |s|
  {
    seq(|s|, i requires 0 <= i < |s| => LowerChar(s[i]))
  }

  /** `sep.join(parts)`. */
  function Join(sep: string, parts: seq<string>): string {
    if |parts| == 0 then ""
    else if |parts| == 1 then parts[0]
    else parts[0] + sep + Join(sep, parts[1..])
  }
}

=== FILE: timestamp.dfy ===
/** UTC timestamps as `datetime` holds them, and the fixed-width
    `%Y%m%d%H%M%S` rendering used in every artifact name. */
module Timestamp {
  import opened Wrappers

  datatype DateTime = DateTime(year: int, month: int, day: int, hour: int, minute: int, second: int)

  predicate IsLeap(y: int) {
    y % 4 == 0 && (y % 100 != 0 || y % 400 == 0)
  }

  function DaysInMonth(y: int, m: int): int
    requires 1 <= m <= 12
  {
    if m == 2 then (if IsLeap(y) then 29 else 28)
    else if m == 4 || m == 6 || m == 9 || m == 11 then 30
    else 31
  }

  /** The range a Python `datetime` accepts (years 1 to 9999). */
  predicate Valid(t: DateTime) {
    && 1 <= t.year <= 9999
    && 1 <= t.month <= 12
    && 1 <= t.day <= DaysInMonth(t.year, t.month)
    && 0 <= t.hour < 24
    && 0 <= t.minute < 60
    && 0 <= t.second < 60
  }

  predicate IsDigit(c: char) {
    '0' <= c <= '9'
  }

  predicate AllDigits(s: string) {
    forall i :: 0 <= i < |s| ==> IsDigit(s[i])
  }

  function Pow10(n: nat): nat {
    if n == 0 then 1 else 10 * Pow10(n - 1)
  }

  /** `n` in decimal, zero-padded (or cut) to exactly `width` digits. */
  function Pad(n: nat, width: nat): (r: string)
    ensures |r| == width && AllDigits(r)
  {
    if width == 0 then ""
    else Pad(n / 10, width - 1) + [('0' as int + n % 10) as char]
  }

  /** The number a string of decimal digits denotes. */
  function Value(s: string): nat
    requires AllDigits(s)
  {
    if s == [] then 0
    else Value(s[..|s| - 1]) * 10 + (s[|s| - 1] as int - '0' as int)
  }

  /** Reading back a padded number gives the number, when it fits the width. */
  lemma {:induction false} ValuePad(n: nat, width: nat)
    requires n < Pow10(width)
    ensures Value(Pad(n, width)) == n
  {
    if width > 0 {
      var p := Pad(n, width);
      assert p[..|p| - 1] == Pad(n / 10, width - 1);
      assert p[|p| - 1] as int - '0' as int == n % 10;
      assert n / 10 < Pow10(width - 1);
      ValuePad(n / 10, width - 1);
      assert Value(p) == Value(Pad(n / 10, width - 1)) * 10 + n % 10;
    }
  }

  /** `strftime("%Y%m%d%H%M%S")`: fourteen digits, most significant first. */
  function Format14(t: DateTime): (r: string)
    requires Valid(t)
    ensures |r| == 14 && AllDigits(r)
  {
    Pad(t.year, 4) + Pad(t.month, 2) + Pad(t.day, 2)
    + Pad(t.hour, 2) + Pad(t.minute, 2) + Pad(t.second, 2)
  }

  /** Reads a fourteen-digit stamp back into a date and time, rejecting
      anything that is not a valid one. */
  function Parse14(s: string): (r: Option<DateTime>)
    ensures r.Some? ==> Valid(r.value)
  {
    if |s| == 14 && AllDigits(s) then
      var t := DateTime(Value(s[0..4]), Value(s[4..6]), Value(s[6..8]),
                        Value(s[8..10]), Value(s[10..12]), Value(s[12..14]));
      if Valid(t) then Some(t) else None
    else None
  }

  /** Where each field sits in a fourteen-digit stamp. */
  lemma Fields(a: string, b: string, c: string, d: string, e: string, f: string)
    requires |a| == 4 && |b| == 2 && |c| == 2 && |d| == 2 && |e| == 2 && |f| == 2
    ensures var s := a + b + c + d + e + f;
      && s[0..4] == a && s[4..6] == b && s[6..8] == c
      && s[8..10] == d && s[10..12] == e && s[12..14] == f
  {
  }

  /** The stamp of a valid time reads back as that time. */
  lemma ParseFormat(t: DateTime)
    requires Valid(t)
    ensures Parse14(Format14(t)) == Some(t)
  {
    assert Pow10(2) == 100 && Pow10(4) == 10000;
    Fields(Pad(t.year, 4), Pad(t.month, 2), Pad(t.day, 2), Pad(t.hour, 2), Pad(t.minute, 2), Pad(t.second, 2));
    ValuePad(t.year, 4);
    ValuePad(t.month, 2);
    ValuePad(t.day, 2);
    ValuePad(t.hour, 2);
    ValuePad(t.minute, 2);
    ValuePad(t.second, 2);
  }

  /** Different seconds give different stamps. */
  lemma FormatInjective(t1: DateTime, t2: DateTime)
    requires Valid(t1) && Valid(t2)
    requires Format14(t1) == Format14(t2)
    ensures t1 == t2
  {
    ParseFormat(t1);
    ParseFormat(t2);
  }
}

=== FILE: token_budget.dfy ===
/** The CLIP prompt budget: a fixed preamble plus as much of a caption as
    fits in 77 tokens, two of which are the start and end markers. The
    tokenizer is left abstract; only the length of its token lists matters. */
module TokenBudget {

  /** CLIP's maximum input length, in tokens. */
  const MaxTotalTokens: int := 77

  /** The start and end markers the encoder adds to every prompt. */
  const ReservedTokens: int := 2

  /** A tokenizer: `tokenize` is `clip_tokenizer.tokenize` and `detokenize`
      is `clip_tokenizer.convert_tokens_to_string`. */
  datatype Tokenizer<!Tok> = Tokenizer(tokenize: string -> seq<Tok>, detokenize: seq<Tok> -> string)

  /** Python's `s[:k]`: a negative `k` counts from the end. */
  function SliceTo<T>(s: seq<T>, k: int): (r: seq<T>)
    ensures |r| <= |s| && r == s[..|r|]
    ensures 0 <= k ==> |r| == (if k < |s| then k else |s|)
    ensures k < 0 ==> |r| == (if |s| + k > 0 then |s| + k else 0)
  {
    if 0 <= k then (if k < |s| then s[..k] else s)
    else if |s| + k > 0 then s[..|s| + k] else []
  }

  /** Tokens left for the caption: 77 less the preamble's tokens less the
      two markers. */
  function Budget<Tok>(t: Tokenizer<Tok>, preamble: string): int {
    MaxTotalTokens - |t.tokenize(preamble)| - ReservedTokens
  }

  /** The caption's token list after the cut: untouched when it fits,
      otherwise `tokens[:budget]`. */
  function KeptTokens<Tok>(t: Tokenizer<Tok>, preamble: string, caption: string): (r: seq<Tok>)
    ensures var toks := t.tokenize(caption);
      && |r| <= |toks| && r == toks[..|r|]
    ensures |t.tokenize(caption)| <= Budget(t, preamble) ==> r == t.tokenize(caption)
    ensures 0 <= Budget(t, preamble) < |t.tokenize(caption)| ==> |r| == Budget(t, preamble)
    ensures 0 <= Budget(t, preamble) ==>
      |t.tokenize(preamble)| + |r| + ReservedTokens <= MaxTotalTokens
    ensures Budget(t, preamble) < 0 ==>
      |r| == (if |t.tokenize(caption)| + Budget(t, preamble) > 0 then |t.tokenize(caption)| + Budget(t, preamble) else 0)
  {
    var toks := t.tokenize(caption);
    var budget := Budget(t, preamble);
    if |toks| > budget then SliceTo(toks, budget) else toks
  }

  /** A negative budget does not empty the caption: Python's slice keeps
      all but the last `-budget` tokens, and the prompt then overflows. */
  lemma NegativeBudgetOverflows<Tok>(t: Tokenizer<Tok>, preamble: string, caption: string)
    requires Budget(t, preamble) < 0
    requires |t.tokenize(caption)| + Budget(t, preamble) > 0
    ensures KeptTokens(t, preamble, caption) != []
    ensures |t.tokenize(preamble)| + |KeptTokens(t, preamble, caption)| + ReservedTokens > MaxTotalTokens
  {
  }

  /** The caption text that goes into the prompt: the caption itself when
      its tokens fit, otherwise the detokenized cut token list. */
  function FitCaption<Tok>(t: Tokenizer<Tok>, preamble: string, caption: string): (r: string)
    ensures |t.tokenize(caption)| <= Budget(t, preamble) ==> r == caption
    ensures 0 <= Budget(t, preamble) < |t.tokenize(caption)| ==>
      r == t.detokenize(t.tokenize(caption)[..Budget(t, preamble)])
    ensures |t.tokenize(caption)| > Budget(t, preamble) ==>
      r == t.detokenize(KeptTokens(t, preamble, caption))
  {
    var toks := t.tokenize(caption);
    if |toks| > Budget(t, preamble) then t.detokenize(KeptTokens(t, preamble, caption)) else caption
  }
}

=== FILE: vision_model_test.dfy ===
/** `vision_model_test.py`: the batch variant. It reads an exported digest
    file back into its three sections, translates each non-empty section
    and asks the diffusion pipeline for one picture per section. The file
    dialog, the model loading and the results file are left out; the file's
    content, the translator, the tokenizer and the pipeline are parameters. */
module VisionModelTest {
  import opened Wrappers
  import opened PyStr
  import opened PyPath
  import opened TokenBudget
  import opened Digest
  import ImageGenerator

  /** The preamble this script gives the pipeline. */
  const VisionBasePrompt := "A watercolor illustration of a children story"

  /** The folder the pictures are written to. */
  const OutputFolder := "translate_vision_test"

  /** What `generate_image_with_prompt` returns instead of a path when
      anything inside it raises. */
  const ImageFailed := "Görsel oluşturulamadı."

  /** The marker a section's text follows: its heading and a colon. */
  function Label(p: Part): string {
    Header(p) + ":"
  }

  /** `pat` occurs nowhere in `s`. */
  ghost predicate Absent(s: string, pat: string) {
    forall k :: !OccursAt(s, pat, k)
  }

  /** An occurrence inside a slice is an occurrence in the whole string,
      shifted by the slice's start and ending before the slice's end. */
  lemma OccursInSlice(s: string, lo: nat, hi: nat, pat: string, j: int)
    requires lo <= hi <= |s|
    ensures OccursAt(s[lo..hi], pat, j) ==> OccursAt(s, pat, lo + j) && lo + j + |pat| <= hi
  {
    if OccursAt(s[lo..hi], pat, j) {
      forall t | 0 <= t < |pat| ensures s[lo + j..lo + j + |pat|][t] == pat[t] {
        assert s[lo..hi][j..j + |pat|][t] == pat[t];
      }
    }
  }

  /** A slice of `s` holds no `pat` when no `pat` starts in that range of `s`. */
  lemma AbsentInSlice(s: string, lo: nat, hi: nat, pat: string)
    requires lo <= hi <= |s| && pat != ""
    requires forall k :: lo <= k < hi ==> !OccursAt(s, pat, k)
    ensures Absent(s[lo..hi], pat)
  {
    forall j ensures !OccursAt(s[lo..hi], pat, j) {
      OccursInSlice(s, lo, hi, pat, j);
    }
  }

  /** Stripping cannot create an occurrence. */
  lemma AbsentStrip(x: string, pat: string)
    requires Absent(x, pat) && pat != ""
    ensures Absent(Strip(x), pat)
  {
    var k := StripSlice(x);
    AbsentInSlice(x, k, k + |Strip(x)|, pat);
  }

  /** `e` is where a section starting at `start` closes: the first blank
      line at or after `start`, or the end of the content when none follows. */
  ghost predicate ClosesAt(content: string, start: nat, e: nat) {
    && start <= e <= |content|
    && (forall k :: start <= k < e ==> !OccursAt(content, "\n\n", k))
    && (e == |content| || OccursAt(content, "\n\n", e))
  }

  /** `n` is the first place `pat` occurs in `s`. */
  ghost predicate FirstAt(s: string, pat: string, n: nat) {
    OccursAt(s, pat, n) && forall k :: 0 <= k < n ==> !OccursAt(s, pat, k)
  }

  /** A section closes at one place only. */
  lemma ClosesAtUnique(content: string, start: nat, e1: nat, e2: nat)
    requires ClosesAt(content, start, e1) && ClosesAt(content, start, e2)
    ensures e1 == e2
  {
  }

  /** The section text a marker opens is determined by the content: the
      first occurrence of the marker is unique. */
  lemma SectionTextUnique(content: string, L: string, v: string, w: string)
    requires SectionText(content, L, v) && SectionText(content, L, w)
    ensures v == w
  {
    var n1: nat :| FirstAt(content, L, n1) && v == SectionFrom(content, L, n1);
    var n2: nat :| FirstAt(content, L, n2) && w == SectionFrom(content, L, n2);
    FirstAtUnique(content, L, n1, n2);
  }

  /** A pattern occurs first at one place only. */
  lemma FirstAtUnique(s: string, pat: string, n1: nat, n2: nat)
    requires FirstAt(s, pat, n1) && FirstAt(s, pat, n2)
    ensures n1 == n2
  {
  }

  /** `v` is the section a marker `L` opens in `content`: the text from
      just after the first `L` up to the blank line that closes it,
      stripped. */
  ghost predicate SectionText(content: string, L: string, v: string) {
    exists n: nat :: FirstAt(content, L, n) && v == SectionFrom(content, L, n)
  }

  /** Python's `content[from:end]` where `end` is the first blank line at
      or after `start` (or the end of the content): empty when `end` comes
      first, and never holding a blank line. */
  function UpToBlankLine(content: string, start: nat, from: nat): (r: string)
    requires start <= from <= |content|
    ensures exists e: nat :: ClosesAt(content, start, e) && r == (if from <= e then content[from..e] else "")
    ensures Absent(r, "\n\n")
  {
    var end := match Find(content, "\n\n", start) case Some(e) => e case None => |content|;
    assert ClosesAt(content, start, end);
    if from <= end then
      AbsentInSlice(content, from, end, "\n\n");
      content[from..end]
    else ""
  }

  /** The text after the first marker `L`: `None` when the marker is
      missing; otherwise the text from just after the first marker up to
      the first blank line at or after the marker (or the end), stripped. */
  function SectionAfter(content: string, L: string): (r: Option<string>)
    ensures r.None? <==> !Contains(content, L)
    ensures r.Some? ==> Stripped(r.value)
    ensures r.Some? ==> Absent(r.value, "\n\n")
    ensures r.Some? ==> SectionText(content, L, r.value)
  {
    match Find(content, L, 0)
    case None => None
    case Some(start) =>
      assert FirstAt(content, L, start);
      Some(SectionFrom(content, L, start))
  }

  /** The section text for a marker found at `start`: the text from just
      after the marker up to the blank line that closes the section,
      stripped; so it is stripped, and free of blank lines. */
  function SectionFrom(content: string, L: string, start: nat): (r: string)
    requires start + |L| <= |content|
    ensures Stripped(r) && Absent(r, "\n\n")
  {
    var slice := UpToBlankLine(content, start, start + |L|);
    AbsentStrip(slice, "\n\n");
    Strip(slice)
  }

  /** One section of `process_file`: the text after its `Header:` marker. */
  function ExtractSection(content: string, p: Part): (r: Option<string>)
    ensures r.None? <==> !Contains(content, Label(p))
    ensures r.Some? ==> Stripped(r.value)
    ensures r.Some? ==> Absent(r.value, "\n\n")
    ensures r.Some? ==> SectionText(content, Label(p), r.value)
  {
    SectionAfter(content, Label(p))
  }

  /** A found marker: the section is the stripped text from just after the
      marker up to the blank line that closes it. */
  lemma ExtractFound(content: string, L: string, n: nat)
    requires Find(content, L, 0) == Some(n)
    ensures n + |L| <= |content|
    ensures SectionAfter(content, L) == Some(SectionFrom(content, L, n))
  {
  }

  /** `process_file` on the file's content. */
  function ProcessFile(content: string): (r: Sections<Option<string>>)
    ensures forall p :: r.Get(p).None? <==> !Contains(content, Label(p))
    ensures forall p :: r.Get(p).Some? ==> Stripped(r.Get(p).value) && Absent(r.Get(p).value, "\n\n")
    ensures forall p :: r.Get(p) == ExtractSection(content, p)
  {
    var r := Sections(ExtractSection(content, Intro), ExtractSection(content, Development),
                      ExtractSection(content, Conclusion));
    assert forall p :: r.Get(p) == ExtractSection(content, p);
    r
  }

  /** `f"{base_prompt} {english_summary}"` with the summary cut to the
      token budget the preamble leaves. */
  function VisionPrompt<Tok>(clip: Tokenizer<Tok>, basePrompt: string, caption: string): (r: string)
    ensures StartsWith(r, basePrompt + " ")
    ensures |clip.tokenize(caption)| <= Budget(clip, basePrompt) ==> r == basePrompt + " " + caption
    ensures 0 <= Budget(clip, basePrompt) < |clip.tokenize(caption)| ==>
      r == basePrompt + " " + clip.detokenize(clip.tokenize(caption)[..Budget(clip, basePrompt)])
  {
    basePrompt + " " + FitCaption(clip, basePrompt, caption)
  }

  /** `generate_image_with_prompt`: the picture's path, `{title}.png` in the
      output folder, or the failure message when the pipeline is missing or
      fails. */
  function GenerateImageWithPrompt<Tok>(caption: string, basePrompt: string, clip: Tokenizer<Tok>,
                                        pipe: Option<ImageGenerator.Pipe>, outputFolder: string,
                                        title: string): (r: string)
    ensures r == ImageFailed <==> pipe.None? || !pipe.value(VisionPrompt(clip, basePrompt, caption))
    ensures r != ImageFailed ==> r == PathJoin(outputFolder, title + ".png")
    ensures r != ImageFailed ==> EndsWith(r, ".png")
  {
    var prompt := VisionPrompt(clip, basePrompt, caption);
    if pipe.None? || !pipe.value(prompt) then ImageFailed
    else
      var path := PathJoin(outputFolder, title + ".png");
      assert path[|path| - 4..] == (title + ".png")[|title|..];
      assert path[|path| - 1] != ImageFailed[|ImageFailed| - 1];
      path
  }

  /** What the main loop records for one section: the translation and the
      picture's path (or the failure message). */
  datatype Outcome = Outcome(part: Part, translation: string, image: string)

  /** `if text:` — the section was found and is not empty. */
  predicate Present(sections: Sections<Option<string>>, p: Part) {
    sections.Get(p).Some? && sections.Get(p).value != ""
  }

  /** The position of a section in the fixed key order Giriş, Gelişme,
      Sonuç that every loop over the sections follows, whatever the
      order of the headings in the file. */
  function Ordinal(p: Part): nat {
    match p
    case Intro => 0
    case Development => 1
    case Conclusion => 2
  }

  predicate Ascending(parts: seq<Part>) {
    forall i, j :: 0 <= i < j < |parts| ==> Ordinal(parts[i]) < Ordinal(parts[j])
  }

  /** In ascending parts the first comes before every later one. */
  lemma AscendingHead(parts: seq<Part>)
    requires Ascending(parts) && parts != []
    ensures forall q :: q in parts[1..] ==> Ordinal(parts[0]) < Ordinal(q)
  {
    forall q | q in parts[1..] ensures Ordinal(parts[0]) < Ordinal(q) {
      var j :| 0 <= j < |parts[1..]| && parts[1..][j] == q;
      assert parts[j + 1] == q;
    }
  }

  /** A part placed before ascending parts it precedes keeps them ascending. */
  lemma AscendingCons(x: Part, ps: seq<Part>)
    requires Ascending(ps)
    requires forall q :: q in ps ==> Ordinal(x) < Ordinal(q)
    ensures Ascending([x] + ps)
  {
    var s := [x] + ps;
    forall i, j | 0 <= i < j < |s| ensures Ordinal(s[i]) < Ordinal(s[j]) {
      assert s[j] == ps[j - 1];
      if i > 0 {
        assert s[i] == ps[i - 1];
      } else {
        assert ps[j - 1] in ps;
      }
    }
  }

  /** The record for one present section, handled as the loop body does. */
  function Handle<Tok>(p: Part, text: string, translator: Option<ImageGenerator.Translator>,
                       clip: Tokenizer<Tok>, pipe: Option<ImageGenerator.Pipe>): (r: Outcome)
    ensures r.part == p
  {
    var english := ImageGenerator.TranslateText(text, translator);
    Outcome(p, english, GenerateImageWithPrompt(english, VisionBasePrompt, clip, pipe, OutputFolder, Header(p)))
  }

  /** The sections the records are for, in order. */
  function PartsOf(r: seq<Outcome>): (ps: seq<Part>)
    ensures |ps| == |r| && forall i :: 0 <= i < |r| ==> ps[i] == r[i].part
  {
    seq(|r|, i requires 0 <= i < |r| => r[i].part)
  }

  /** The main loop over `parts`: present sections are handled in order,
      absent or empty ones are skipped. */
  function RunSections<Tok>(parts: seq<Part>, sections: Sections<Option<string>>,
                            translator: Option<ImageGenerator.Translator>, clip: Tokenizer<Tok>,
                            pipe: Option<ImageGenerator.Pipe>): seq<Outcome>
    decreases |parts|
  {
    if parts == [] then []
    else
      var rest := RunSections(parts[1..], sections, translator, clip, pipe);
      if Present(sections, parts[0]) then
        [Handle(parts[0], sections.Get(parts[0]).value, translator, clip, pipe)] + rest
      else rest
  }

  /** Every record is the loop body applied to a present section. */
  lemma RunSectionsHandles<Tok>(parts: seq<Part>, sections: Sections<Option<string>>,
                                translator: Option<ImageGenerator.Translator>, clip: Tokenizer<Tok>,
                                pipe: Option<ImageGenerator.Pipe>)
    ensures var r := RunSections(parts, sections, translator, clip, pipe);
      forall i :: 0 <= i < |r| ==>
        && Present(sections, r[i].part)
        && r[i].translation == ImageGenerator.TranslateText(sections.Get(r[i].part).value, translator)
        && r[i].image == GenerateImageWithPrompt(r[i].translation, VisionBasePrompt, clip, pipe,
                                                 OutputFolder, Header(r[i].part))
    decreases |parts|
  {
    if parts != [] {
      RunSectionsHandles(parts[1..], sections, translator, clip, pipe);
    }
  }

  /** A record in front puts its part in front. */
  lemma PartsOfCons(h: Outcome, rest: seq<Outcome>)
    ensures PartsOf([h] + rest) == [h.part] + PartsOf(rest)
  {
    assert PartsOf([h] + rest)[0] == h.part;
    assert forall i :: 0 < i < |rest| + 1 ==> PartsOf([h] + rest)[i] == PartsOf(rest)[i - 1];
  }

  /** One step of the loop, seen through the parts it records: the first
      part when present, then the rest. */
  lemma PartsOfStep<Tok>(parts: seq<Part>, sections: Sections<Option<string>>,
                         translator: Option<ImageGenerator.Translator>, clip: Tokenizer<Tok>,
                         pipe: Option<ImageGenerator.Pipe>)
    requires parts != []
    ensures PartsOf(RunSections(parts, sections, translator, clip, pipe)) ==
      (if Present(sections, parts[0]) then [parts[0]] else []) +
      PartsOf(RunSections(parts[1..], sections, translator, clip, pipe))
  {
    var rest := RunSections(parts[1..], sections, translator, clip, pipe);
    if Present(sections, parts[0]) {
      PartsOfCons(Handle(parts[0], sections.Get(parts[0]).value, translator, clip, pipe), rest);
    } else {
      assert [] + PartsOf(rest) == PartsOf(rest);
    }
  }

  /** The loop handles exactly the present sections among `parts`. */
  lemma {:induction false} RunSectionsMembers<Tok>(parts: seq<Part>, sections: Sections<Option<string>>,
                                                   translator: Option<ImageGenerator.Translator>,
                                                   clip: Tokenizer<Tok>, pipe: Option<ImageGenerator.Pipe>)
    ensures var ps := PartsOf(RunSections(parts, sections, translator, clip, pipe));
      forall p :: p in ps <==> p in parts && Present(sections, p)
    decreases |parts|
  {
    if parts != [] {
      RunSectionsMembers(parts[1..], sections, translator, clip, pipe);
      PartsOfStep(parts, sections, translator, clip, pipe);
      assert parts == [parts[0]] + parts[1..];
    }
  }

  /** The records follow the order of `parts`, so none is repeated. */
  lemma {:induction false} RunSectionsOrdered<Tok>(parts: seq<Part>, sections: Sections<Option<string>>,
                                                   translator: Option<ImageGenerator.Translator>,
                                                   clip: Tokenizer<Tok>, pipe: Option<ImageGenerator.Pipe>)
    requires Ascending(parts)
    ensures Ascending(PartsOf(RunSections(parts, sections, translator, clip, pipe)))
    decreases |parts|
  {
    if parts != [] {
      var ps := PartsOf(RunSections(parts[1..], sections, translator, clip, pipe));
      RunSectionsOrdered(parts[1..], sections, translator, clip, pipe);
      PartsOfStep(parts, sections, translator, clip, pipe);
      if Present(sections, parts[0]) {
        RunSectionsMembers(parts[1..], sections, translator, clip, pipe);
        AscendingHead(parts);
        AscendingCons(parts[0], ps);
      } else {
        assert [] + ps == ps;
      }
    }
  }

  /** Sections in the fixed key order number at most three. */
  lemma AscendingAtMostThree(ps: seq<Part>)
    requires Ascending(ps)
    ensures |ps| <= 3
  {
    assert |ps| > 3 ==> Ordinal(ps[0]) < Ordinal(ps[1]) < Ordinal(ps[2]) < Ordinal(ps[3]);
  }

  /** Each record of the script's loop is for a present section and holds
      that section's translation. */
  lemma ScriptRecords<Tok>(sections: Sections<Option<string>>,
                           translator: Option<ImageGenerator.Translator>,
                           clip: Tokenizer<Tok>, pipe: Option<ImageGenerator.Pipe>)
    ensures var r := RunSections(Parts, sections, translator, clip, pipe);
      forall i :: 0 <= i < |r| ==>
        && Present(sections, r[i].part)
        && r[i].translation == ImageGenerator.TranslateText(sections.Get(r[i].part).value, translator)
  {
    RunSectionsHandles(Parts, sections, translator, clip, pipe);
  }

  /** The script's loop records exactly the present sections, at most
      three, in the fixed order Giriş, Gelişme, Sonuç. */
  lemma ScriptParts<Tok>(sections: Sections<Option<string>>,
                         translator: Option<ImageGenerator.Translator>,
                         clip: Tokenizer<Tok>, pipe: Option<ImageGenerator.Pipe>)
    ensures var r := RunSections(Parts, sections, translator, clip, pipe);
      && |r| <= 3
      && (forall p :: p in PartsOf(r) <==> Present(sections, p))
      && Ascending(PartsOf(r))
  {
    var r := RunSections(Parts, sections, translator, clip, pipe);
    assert Ascending(Parts);
    RunSectionsOrdered(Parts, sections, translator, clip, pipe);
    AscendingAtMostThree(PartsOf(r));
    RunSectionsMembers(Parts, sections, translator, clip, pipe);
    forall p: Part ensures p in Parts {
      assert Parts[Ordinal(p)] == p;
    }
  }

  /** `main` after the file has been chosen and read: the loop over the
      three sections of the file. */
  function RunScript<Tok>(content: string, translator: Option<ImageGenerator.Translator>,
                          clip: Tokenizer<Tok>, pipe: Option<ImageGenerator.Pipe>): seq<Outcome>
  {
    RunSections(Parts, ProcessFile(content), translator, clip, pipe)
  }

  /** The script makes at most three records, in the fixed order Giriş,
      Gelişme, Sonuç whatever their order in the file, each for a section
      whose marker is in the file. */
  lemma RunScriptSpec<Tok>(content: string, translator: Option<ImageGenerator.Translator>,
                           clip: Tokenizer<Tok>, pipe: Option<ImageGenerator.Pipe>)
    ensures var r := RunScript(content, translator, clip, pipe);
      && |r| <= 3
      && Ascending(PartsOf(r))
      && (forall i :: 0 <= i < |r| ==> Contains(content, Label(r[i].part)))
  {
    var sections := ProcessFile(content);
    ScriptParts(sections, translator, clip, pipe);
    ScriptRecords(sections, translator, clip, pipe);
  }
}

=== FILE: wrappers.dfy ===
/** Failure-carrying values: Python's `None` and the caught-exception
    outcomes of the modelled code become `Option` and `Result`. */
module Wrappers {

  datatype Option<+T> = None | Some(value: T)

  datatype Result<+T, +E> = Ok(value: T) | Err(error: E)
}
